=== FILE: README.md ===
# Stockathon trade settlement, modelled in Dafny

Stockathon is a small stock-trading simulation. Investors hold a cash
balance and a portfolio. Stocks have a price, an inventory of unsold shares
and a list of Owners. The backend handlers `buy` and `sell` settle one trade
each. Inside one database session they load an Investor and a Stock,
validate, update both records in place and append a BUY or SELL
transaction. This project models those two handlers, the price-update
helper, and the pure helpers the frontend uses to filter, sort, value and
summarise the same data.

Modules, one per source file:

- `Pricing` (pricing.dfy): `updatePrice`, as a rounding function plus an in-place update of a `{value, totalShares, marketCap}` record.
- `Ledger` (ledger.dfy): the Investor, Stock and Transaction records. The Investor and Stock documents are classes whose fields the handlers update. The log is an append-only class. The module also holds the two lookups, by stock in a portfolio and by investor in Owners, and the share sums.
- `Settlement` (settlement.dfy): `buy` and `sell`. `BuyTrade` and `SellTrade` give the effect of one call on the values of the two records. The methods `Buy` and `Sell` carry out that effect step by step on the documents and the log, and are proved to agree with them. Lemmas prove conservation of shares, agreement of the two ownership views, the balance rules and the buy-then-sell round trip.
- `TransactionService`, `PortfolioService`, `StockService`, `AdminService`, `Formatters`: the frontend helpers. They are pure functions over sequences.
- `Wrappers`: `Option`, used for JavaScript fields that may be missing.
- `Sequences`: `findIndex`. The backend's portfolio and Owners lookups and the frontend's portfolio lookup all use it.

Modelling choices:

- Money is in whole cents (`int`). The schema defaults (balance 10000, price 100) are in dollars and become 1 000 000 and 10 000 cents. Percentages and display numbers are `real`.
- A `findById` that finds nothing is a `null` argument to `Buy` or `Sell`.
- One database session is one atomic step. Every rejected call leaves both records and the log exactly as they were. This includes the catch block that an exception reaches.
- Share counts are not checked to be positive. The source only runs `parseInt` on them (utils/stocks.util.js:198, 391). No check rejects a count for being zero or negative. A non-owner selling still gets `DoesNotOwn`, and a negative buy still fails `canBuy` when the balance is below shares·price. `NegativeSellOverdraws` shows where that leads.
- The two ownership views are NOT assumed to agree. When `Stock.Owners` names the investor but the portfolio has no entry for the stock, `buy` (after `canBuy`) and `sell` dereference `portfolio[-1]`. That throws, and the catch block aborts the session. The model returns `Rejected(Crashed)` with nothing changed. `ViewsAgree` states the invariant, and `BuyKeepsViewsAgreeing` and `SellKeepsViewsAgreeing` prove that it rules the crash out and is preserved.
- `updatePrice` reads and writes `value`, `totalShares` and `marketCap`. The handlers call it on a Stock document, which has no `value` and no `totalShares`. So the call never changes `pricePerShare`, and the settlement model leaves `pricePerShare` untouched. `Pricing` models `updatePrice` on a record that has those fields.
- `sell` never removes an entry whose count reaches 0, in either list. The model keeps such entries. The commented-out older `sell` removed an emptied portfolio entry (utils/stocks.util.js:340-344) but decremented `Owners[0]`, which need not be the seller's entry (utils/stocks.util.js:349). That version is not modelled.
- A first-time buyer gets one Owners entry and one portfolio entry. It is "first-time" because `Stock.Owners` has no entry for them; the portfolio is not consulted, as in the source.

## Model

| member | source | states |
|---|---|---|
| `Pricing.RoundedPrice` | utils/pricing.util.js:3-5 | the new value is the cent amount nearest to value·(1 + 0.001·volume), a half cent rounding up |
| `Pricing.RoundedPriceUnique` | utils/pricing.util.js:5 | the rounding bounds determine the new value uniquely |
| `Pricing.ZeroVolumeKeepsPrice` | utils/pricing.util.js:4-5 | a volume of 0 leaves a cent-precision value unchanged |
| `Pricing.BuyVolumeNeverLowers` | utils/pricing.util.js:4-5 | for a positive value, a non-negative volume never lowers it |
| `Pricing.SellVolumeNeverRaises` | utils/pricing.util.js:4-5 | for a positive value, a non-positive volume never raises it |
| `Pricing.NoPriceFloor` | utils/pricing.util.js:4-5 | there is no floor: at volume <= -1000 a positive value becomes <= 0 |
| `Pricing.UpdatePrice` | utils/pricing.util.js:2-8 | updates value and sets marketCap = totalShares · new value on the same record, returns that record, and leaves totalShares alone |
| `Sequences.FirstIndex` | utils/stocks.util.js:235-240 | findIndex: the index of the first element satisfying the callback, and no earlier one does; -1 exactly when no element does |
| `Sequences.FirstIndexAfterAppend` | utils/stocks.util.js:225-226 | after pushing a matching entry onto a list with no match, findIndex finds the pushed entry |
| `Sequences.FirstIndexAfterUpdate` | utils/stocks.util.js:255-256 | overwriting the first match with another matching entry keeps findIndex's answer |
| `Ledger.SumOwnedAppend` | utils/stocks.util.js:225 | pushing an Owners entry adds exactly its shares to the owned total |
| `Ledger.SumOwnedUpdate` | utils/stocks.util.js:256 | changing one Owners entry changes the owned total by the difference |
| `Ledger.Investor.constructor` | models/investor.model.js:13-21 | a new investor has the default balance and an empty portfolio |
| `Ledger.Stock.constructor` | models/stock.model.js:19-34 | a new stock has the default price, 1000 unsold shares and no owners |
| `Ledger.TransactionLog.Append` | utils/stocks.util.js:267-273 | the log only grows, by exactly the appended transaction |
| `Settlement.CanBuy` | utils/stocks.util.js:201 | canBuy holds exactly when paying shares·pricePerShare leaves a non-negative balance and taking that many from the unsold inventory leaves it non-negative. Its body is the source expression |
| `Settlement.BuyTrade` | utils/stocks.util.js:182-294 | a rejected buy changes nothing. It is accepted iff canBuy holds and no portfolio lookup fails. It is rejected as CannotBuy iff canBuy fails, and as Crashed iff canBuy holds for a listed owner with no portfolio entry. On success the balance drops by shares·price and the unsold shares by shares. A first-time owner gets one new Owners entry and one new portfolio entry; a repeat owner's two entries keep their investor and stock and grow by shares, and nothing else changes. The BUY record carries the pre-trade price |
| `Settlement.SellTrade` | utils/stocks.util.js:381-474 | a rejected sell changes nothing. It is DoesNotOwn iff there is no Owners entry, Crashed iff a listed owner has no portfolio entry, and NotEnoughShares iff the holding is smaller than the count. On success the balance gains price·shares, the unsold shares grow by shares, both entries shrink by shares and stay in place (even at 0), and the SELL record carries the pre-trade price |
| `Settlement.Buy` | utils/stocks.util.js:182-294 | a missing investor or stock gives NotFound and changes nothing. Otherwise the documents and the log end up exactly as BuyTrade says, and the log gains the transaction only on success |
| `Settlement.Sell` | utils/stocks.util.js:381-474 | the same for sell and SellTrade |
| `Settlement.BuyConservesShares` | utils/stocks.util.js:222-257 | every buy keeps unsold shares + sum of sharesOwned constant |
| `Settlement.SellConservesShares` | utils/stocks.util.js:431-434 | every sell keeps unsold shares + sum of sharesOwned constant |
| `Settlement.BuyKeepsViewsAgreeing` | utils/stocks.util.js:202-256 | when the two ownership views agree, buy never crashes and they still agree afterwards |
| `Settlement.SellKeepsViewsAgreeing` | utils/stocks.util.js:399-434 | when the two ownership views agree, sell never crashes and they still agree afterwards |
| `Settlement.BuyKeepsOtherPairs` | utils/stocks.util.js:222-257 | a buy leaves the investor's lookup of every other stock and the stock's lookup of every other investor at the same index, so the two views agree for every other pair exactly as before |
| `Settlement.SellKeepsOtherPairs` | utils/stocks.util.js:431-434 | the same for a sell: other stocks and other investors keep their lookups and their agreement |
| `Settlement.BuyKeepsBalanceNonNegative` | utils/stocks.util.js:200-222 | a buy never takes a non-negative balance below 0 |
| `Settlement.SellNeverLowersBalance` | utils/stocks.util.js:428-431 | selling a non-negative count at a non-negative price never lowers the balance |
| `Settlement.NegativeSellOverdraws` | utils/stocks.util.js:391-434 | with no positivity check, selling -1 share is accepted and drives a zero balance negative |
| `Settlement.BuyThenSellRestores` | utils/stocks.util.js:428-434 | buying n and then selling n restores the balance and the unsold shares exactly. A repeat owner gets both records back; a first-time owner keeps 0-share entries at the end of both lists |
| `TransactionService.Filter` | dsa-stockathon-frontend/src/services/transactionService.js:64 | filter keeps every occurrence of each matching element and none of the others, as an order-preserving subsequence |
| `TransactionService.FilterAppend` | dsa-stockathon-frontend/src/services/transactionService.js:64 | filtering a concatenation is the concatenation of the filtered parts |
| `TransactionService.FilterIdempotent` | dsa-stockathon-frontend/src/services/transactionService.js:64 | filtering twice equals filtering once |
| `TransactionService.FilterByInvestor` | dsa-stockathon-frontend/src/services/transactionService.js:29-36 | [] for a non-array; otherwise the investor's transactions, in order, each matching occurrence kept |
| `TransactionService.FilterByStock` | dsa-stockathon-frontend/src/services/transactionService.js:44-53 | [] for a non-array; otherwise the transactions naming the stock under `stock` or `startup`, in order, each matching occurrence kept |
| `TransactionService.FilterByType` | dsa-stockathon-frontend/src/services/transactionService.js:61-65 | [] for a non-array; otherwise the transactions of that type, in order, each matching occurrence kept |
| `TransactionService.FilterByDateRange` | dsa-stockathon-frontend/src/services/transactionService.js:74-81 | [] for a non-array; otherwise exactly the transactions with startDate <= timestamp <= endDate, in order, each matching occurrence kept |
| `TransactionService.SortByDate` | dsa-stockathon-frontend/src/services/transactionService.js:91-93 | the result is sorted by timestamp and is a permutation of the input |
| `TransactionService.SortByDateStable` | dsa-stockathon-frontend/src/services/transactionService.js:91-93 | the sort is stable: transactions with equal timestamps keep their input order |
| `TransactionService.SortByDateDesc` | dsa-stockathon-frontend/src/services/transactionService.js:88-94 | [] for a non-array; otherwise a newest-first, stable permutation of the input |
| `TransactionService.SortByDateAsc` | dsa-stockathon-frontend/src/services/transactionService.js:101-107 | [] for a non-array; otherwise an oldest-first, stable permutation of the input |
| `TransactionService.CalculateTotalValue` | dsa-stockathon-frontend/src/services/transactionService.js:114-121 | 0 for a non-array and for an empty list |
| `TransactionService.TotalValueAfterAdding` | dsa-stockathon-frontend/src/services/transactionService.js:117-120 | each transaction adds (pricePerShare, or value when the price is missing or 0, or 0) times (shares or 0) |
| `TransactionService.TotalValueOfConcat` | dsa-stockathon-frontend/src/services/transactionService.js:117-120 | the total of two lists joined is the sum of their totals |
| `TransactionService.TotalValueNonNegative` | dsa-stockathon-frontend/src/services/transactionService.js:117-120 | non-negative prices and counts (a missing one reads as 0) give a non-negative total |
| `TransactionService.GetTransactionStats` | dsa-stockathon-frontend/src/services/transactionService.js:128-149 | all zero for a non-array; otherwise total = length; buyCount and sellCount are the sizes of the BUY and SELL filters and lie between 0 and the total; the two values are calculateTotalValue of those filters |
| `TransactionService.StatsCountsWithinTotal` | dsa-stockathon-frontend/src/services/transactionService.js:139-144 | buyCount + sellCount never exceeds the total |
| `TransactionService.StatsPartition` | dsa-stockathon-frontend/src/services/transactionService.js:139-148 | when every type is BUY or SELL, the counts add up to the total and the two values add up to calculateTotalValue of the whole list |
| `PortfolioService.CalculateTotalValue` | dsa-stockathon-frontend/src/services/portfolioService.js:29-37 | 0 for a non-array or an empty portfolio |
| `PortfolioService.TotalValueAfterAdding` | dsa-stockathon-frontend/src/services/portfolioService.js:29-37 | adding an entry adds its pricePerShare·shares (missing ones read as 0) |
| `PortfolioService.TotalValueNonNegative` | dsa-stockathon-frontend/src/services/portfolioService.js:29-37 | non-negative prices and counts give a non-negative value |
| `PortfolioService.CalculateProfitLoss` | dsa-stockathon-frontend/src/services/portfolioService.js:46-53 | amount = (current - buy)·shares; the percentage is amount as a percentage of the cost, and 0 when the cost is <= 0 |
| `PortfolioService.ProfitLossAgreesWithFormatter` | dsa-stockathon-frontend/src/services/portfolioService.js:46-53 | for a positive cost, the percentage equals the formatter's calculateProfitLossPercentage of the two values |
| `PortfolioService.ProfitLossDivergesOnNegativeCost` | dsa-stockathon-frontend/src/services/portfolioService.js:50 | for a negative cost, the portfolio reports 0 where the formatter reports a non-zero percentage |
| `PortfolioService.GetPortfolioStats` | dsa-stockathon-frontend/src/services/portfolioService.js:61-73 | totalAssets = totalValue + balance; numberOfStocks is the portfolio length, or 0 for null or undefined; totalInvested is the balance, as written |
| `PortfolioService.FindFirst` | dsa-stockathon-frontend/src/services/portfolioService.js:83-85 | the first entry naming the stock; nothing exactly when no entry names it |
| `PortfolioService.FindStockInPortfolio` | dsa-stockathon-frontend/src/services/portfolioService.js:81-86 | nothing for a non-array; otherwise the first entry naming the stock |
| `PortfolioService.GetSharesOwned` | dsa-stockathon-frontend/src/services/portfolioService.js:94-97 | the first matching entry's shares (0 if missing); 0 when no entry matches or for a non-array |
| `StockService.CalculateTotalCost` | dsa-stockathon-frontend/src/services/stockService.js:116-118 | the cost is pricePerShare·shares (the body is the source expression). It is 0 exactly when either factor is 0, and never negative for non-negative factors; MirrorsBackendCanBuy and AffordableShares state how it feeds the purchase checks |
| `StockService.CanAffordPurchase` | dsa-stockathon-frontend/src/services/stockService.js:126-128 | true exactly when paying totalCost leaves a non-negative balance (the body is the source expression); AffordableShares turns this into a bound on the share count |
| `StockService.HasEnoughShares` | dsa-stockathon-frontend/src/services/stockService.js:136-138 | true exactly when the requested count leaves a non-negative inventory (the body is the source expression); MirrorsBackendCanBuy ties it to the backend's share check |
| `StockService.MirrorsBackendCanBuy` | dsa-stockathon-frontend/src/services/stockService.js:116-138 | canAffordPurchase(balance, calculateTotalCost(price, n)) && hasEnoughShares(available, n) is exactly the buy handler's canBuy |
| `StockService.AffordableShares` | dsa-stockathon-frontend/src/services/stockService.js:126-128 | at a positive price, a balance affords exactly the counts up to floor(balance / price) |
| `AdminService.OwnerKeys` | dsa-stockathon-frontend/src/services/adminService.js:76-80 | the investor keys of one Owners list (a missing investor is one key), no more keys than entries |
| `AdminService.InvestorKeys` | dsa-stockathon-frontend/src/services/adminService.js:76-80 | a key is counted iff some stock's Owners list has an entry with it |
| `AdminService.DistinctInvestorsBound` | dsa-stockathon-frontend/src/services/adminService.js:76-80 | the distinct investor count never exceeds the number of Owners entries |
| `AdminService.InvestorKeysAppend` | dsa-stockathon-frontend/src/services/adminService.js:76-80 | adding a stock adds exactly its own owner keys to the set |
| `AdminService.KnownOwnersCountedOnce` | dsa-stockathon-frontend/src/services/adminService.js:76-80 | adding a stock leaves totalInvestors unchanged iff every owner key of that stock is already counted |
| `AdminService.VolumeMatchesTotalValue` | dsa-stockathon-frontend/src/services/adminService.js:83-85 | when every transaction has shares and a non-zero price, totalVolume equals the transaction service's calculateTotalValue |
| `AdminService.TotalMarketCapUpdate` | dsa-stockathon-frontend/src/services/adminService.js:87-91 | replacing a stock by one of equal cap leaves totalMarketCap unchanged |
| `AdminService.GetSystemStats` | dsa-stockathon-frontend/src/services/adminService.js:75-98 | totalStocks and totalTransactions are the list lengths; totalInvestors is the number of distinct owner keys and at most the number of Owners entries; totalVolume sums shares·pricePerShare (0 when a factor is missing) and equals calculateTotalValue when every transaction has shares and a non-zero price; totalMarketCap sums each stock's issued shares times its price; empty lists give zero |
| `AdminService.DocOwners` | dsa-stockathon-frontend/src/services/adminService.js:89 | an Owners list as fetched sums to the same owned total as the record |
| `AdminService.StockCapOfRecord` | dsa-stockathon-frontend/src/services/adminService.js:87-91 | a stock's market-cap term is its total issued shares times its price |
| `AdminService.TradesKeepMarketCap` | dsa-stockathon-frontend/src/services/adminService.js:87-91 | no buy or sell changes the dashboard's totalMarketCap, because trades conserve issued shares and leave pricePerShare alone |
| `Formatters.Substring` | dsa-stockathon-frontend/src/utils/formatters.js:123 | substring(0, n) is a prefix whose length is n clamped to [0, length] |
| `Formatters.TruncateText` | dsa-stockathon-frontend/src/utils/formatters.js:120-124 | '' for empty text; the text itself when it fits; otherwise the first maxLength characters (none if maxLength < 0) followed by "...", of length maxLength + 3 |
| `Formatters.TruncateIdempotent` | dsa-stockathon-frontend/src/utils/formatters.js:120-124 | truncating a truncated text changes nothing, for every maxLength |
| `Formatters.GetPriceIndicator` | dsa-stockathon-frontend/src/utils/formatters.js:97-101 | up arrow iff positive, down arrow iff negative, flat line iff zero |
| `Formatters.GetValueColorClass` | dsa-stockathon-frontend/src/utils/formatters.js:108-112 | green iff positive, red iff negative, neutral iff zero |
| `Formatters.IndicatorMatchesColor` | dsa-stockathon-frontend/src/utils/formatters.js:97-112 | the arrow and the colour class always agree |
| `Formatters.CalculateProfitLossPercentage` | dsa-stockathon-frontend/src/utils/formatters.js:87-90 | 0 when original is 0; otherwise r·original = (current - original)·100 |
| `Formatters.PercentageFollowsChange` | dsa-stockathon-frontend/src/utils/formatters.js:87-90 | for a positive original, the percentage is positive iff the value rose, and negative iff it fell |
| `Formatters.PercentageSign` | dsa-stockathon-frontend/src/utils/formatters.js:34-38 | the prefix is "+" iff the value is present and > 0 and showSign is set; otherwise it is empty |
| `Formatters.PlusSignMatchesUpArrow` | dsa-stockathon-frontend/src/utils/formatters.js:34-38 | with showSign, a "+" appears exactly where the price indicator points up |
| `Formatters.CompactScale` | dsa-stockathon-frontend/src/utils/formatters.js:45-58 | suffix B iff >= 1e9, M iff in [1e6, 1e9), K iff in [1e3, 1e6), none otherwise or for a missing number |
| `Formatters.CompactMantissaInRange` | dsa-stockathon-frontend/src/utils/formatters.js:45-57 | between 1e3 and 1e12, the exact quotient that toFixed(1) rounds for display lies in [1, 1000) |

## Left out

- Express routing, request parsing, authentication, HTTP status codes and response bodies are not modelled. For example, a missing record gives 404 from `buy` but 400 from `sell`. Both become `Rejected(NotFound)`.
- The mongoose session, `save` and `Transaction.create` are one atomic step that always succeeds. A store write that fails would also end in the catch block with nothing persisted; that case is not modelled.
- The handlers write the stock id under `stock`, but the transaction schema calls that field `startup`. So the persisted record loses the stock id. The model's log keeps what the handlers write. The frontend `TransactionService.Txn` carries both `stock` and `startup`, as the frontend reads both.
- On a Stock document, `updatePrice` sets `value` and `marketCap` to NaN. The model's `Done` outcome assumes that `Stock.save` accepts this value. If the store's Number cast rejects NaN, every buy and sell that passes validation ends in the catch block and is aborted instead; that case is not modelled. The settlement model has no `value` or `marketCap` field.
- `PortfolioService.GetPortfolioStats`: `portfolio?.length || 0` does not test `Array.isArray`, unlike calculateTotalValue. So a non-array with a numeric `length` (a string, a typed array, a function) gives that length as numberOfStocks while totalValue is 0. `None` stands for every non-array and cannot represent such an input; the model gives 0 for it.
- `Pricing.RoundedPrice`: prices are whole cents and the arithmetic is exact. Floating-point error in `value * (1 + 0.001 * volume)` and sub-cent input values are not modelled.
- The timestamp is the transaction schema's default `Date.now` (models/transaction.model.js:9), which the application evaluates when it creates the record. It is the `now` parameter.
- NaN and non-numeric JavaScript values are not modelled: an unparsable share count, a NaN product, a non-string id. Populated references and bare ids both stand for the referenced id.
- `TransactionService.FilterByDateRange`, `SortByDateDesc` and `SortByDateAsc` compare timestamps as integers. `Date` parsing and invalid dates are not modelled.
- `Formatters.TruncateText` (and `Formatters.Substring`): counts lengths in Unicode code points. JavaScript's `length` and `substring` count UTF-16 code units, so text with characters outside the Basic Multilingual Plane can be truncated differently, or cut inside a surrogate pair. The default arguments (`maxLength = 20` for truncateText, `showSign = true` for formatPercentage) are passed explicitly.
- `Formatters.CompactMantissaInRange`: bounds the exact quotient, not the digits that `toFixed(1)` displays. That rounding can show 1000.0: 999 999 displays as "1000.0K".
- `Formatters.PercentageSign` and `Formatters.CompactScale` model only the sign rule and the suffix choice. The digits (`toFixed`, `toString`, `Intl.NumberFormat`) and the date formatters are not modelled.
- The other handlers of utils/stocks.util.js (`stockCreate`, `signin`, `getUser`, `getAllStocks`, `showTransactions`) and the commented-out older handlers are not part of this model. Neither are the investor, auth and company utilities, the middleware, the JWT and password helpers, routes/trades.routes.js (not mounted, and inconsistent with the schemas), utils/portfolio.util.js, the network calls of the frontend services, and the React UI.

=== FILE: admin.dfy ===
/**
 * The market-wide aggregation in the frontend's adminService.getSystemStats,
 * over the stock and transaction lists it has fetched (the fetch itself is
 * not modelled). Missing numeric fields read as 0. Money is in whole cents.
 */
module AdminService {
  import opened Wrappers
  import TransactionService
  import Ledger
  import Settlement

  type Id = string

  /** An Owners entry as fetched; `investor` is None where it is missing. */
  datatype OwnerDoc = OwnerDoc(investor: Option<Id>, sharesOwned: Option<int>)

  /** A stock as fetched; `owners` is None where the Owners list is missing. */
  datatype StockDoc = StockDoc(shares: Option<int>, pricePerShare: Option<int>, owners: Option<seq<OwnerDoc>>)

  datatype SystemStats = SystemStats(
    totalStocks: int,
    totalInvestors: int,
    totalTransactions: int,
    totalVolume: int,
    totalMarketCap: int)

  function OwnersOf(stock: StockDoc): seq<OwnerDoc>
  {
    match stock.owners
    case None => []
    case Some(os) => os
  }

  // ---------------------------------------------------------------------
  // Distinct investors: new Set(stocks.flatMap(owners' investor ids)).size

  /** The investor keys of one Owners list; a missing investor is one key of its own. */
  function OwnerKeys(owners: seq<OwnerDoc>): (r: set<Option<Id>>)
    ensures forall x :: x in r <==> exists j :: 0 <= j < |owners| && owners[j].investor == x
    ensures |r| <= |owners|
  {
    if owners == [] then {}
    else
      var rest := OwnerKeys(owners[1..]);
      assert forall j :: 0 <= j < |owners[1..]| ==> owners[1..][j] == owners[j + 1];
      {owners[0].investor} + rest
  }

  /** The keys of every stock's Owners list together. */
  function InvestorKeys(stocks: seq<StockDoc>): (r: set<Option<Id>>)
    ensures forall x :: x in r <==> exists i :: 0 <= i < |stocks| && x in OwnerKeys(OwnersOf(stocks[i]))
  {
    if stocks == [] then {}
    else
      var rest := InvestorKeys(stocks[1..]);
      assert forall i :: 0 <= i < |stocks[1..]| ==> stocks[1..][i] == stocks[i + 1];
      OwnerKeys(OwnersOf(stocks[0])) + rest
  }

  /** How many Owners entries there are over all stocks. */
  function OwnerEntryCount(stocks: seq<StockDoc>): nat
  {
    if stocks == [] then 0 else |OwnersOf(stocks[0])| + OwnerEntryCount(stocks[1..])
  }

  /** There are never more distinct investors than Owners entries. */
  lemma {:induction false} DistinctInvestorsBound(stocks: seq<StockDoc>)
    ensures |InvestorKeys(stocks)| <= OwnerEntryCount(stocks)
  {
    if stocks != [] {
      DistinctInvestorsBound(stocks[1..]);
      var a := OwnerKeys(OwnersOf(stocks[0]));
      var b := InvestorKeys(stocks[1..]);
      assert |a + b| <= |a| + |b| by {
        assert |a + b| == |a| + |b - a| && |b - a| <= |b| by {
          assert a + b == a + (b - a) && a !! (b - a);
        }
      }
    }
  }

  /** Adding a stock contributes exactly its own owner keys. */
  lemma {:induction false} InvestorKeysAppend(stocks: seq<StockDoc>, d: StockDoc)
    ensures InvestorKeys(stocks + [d]) == InvestorKeys(stocks) + OwnerKeys(OwnersOf(d))
  {
    if stocks == [] {
      assert stocks + [d] == [d];
      assert [d][1..] == [];
    } else {
      assert (stocks + [d])[0] == stocks[0];
      assert (stocks + [d])[1..] == stocks[1..] + [d];
      InvestorKeysAppend(stocks[1..], d);
    }
  }

  /**
   * Set deduplication: adding a stock leaves the investor count unchanged
   * exactly when every investor key of its Owners list is already counted,
   * so an investor holding several stocks is counted once.
   */
  lemma KnownOwnersCountedOnce(stocks: seq<StockDoc>, d: StockDoc)
    ensures |InvestorKeys(stocks + [d])| == |InvestorKeys(stocks)| <==>
      forall x :: x in OwnerKeys(OwnersOf(d)) ==> x in InvestorKeys(stocks)
  {
    InvestorKeysAppend(stocks, d);
    UnionKeepsSize(InvestorKeys(stocks), OwnerKeys(OwnersOf(d)));
  }

  /** A union is no larger than its first part exactly when the second part adds nothing new. */
  lemma UnionKeepsSize(a: set<Option<Id>>, b: set<Option<Id>>)
    ensures |a + b| == |a| <==> b <= a
  {
    assert a + b == a + (b - a);
    assert |a + b| == |a| + |b - a|;
    if !(b <= a) {
      var x :| x in b && x !in a;
      assert x in b - a;
    } else {
      assert b - a == {};
    }
  }

  // ---------------------------------------------------------------------
  // Volume and market capitalisation

  /** `txn.shares * txn.pricePerShare || 0`: a missing factor makes NaN, which counts as 0. */
  function TxnVolume(t: TransactionService.Txn): int
  {
    if t.shares.Some? && t.pricePerShare.Some? then t.shares.value * t.pricePerShare.value else 0
  }

  function TotalVolume(transactions: seq<TransactionService.Txn>): int
  {
    if transactions == [] then 0 else TxnVolume(transactions[0]) + TotalVolume(transactions[1..])
  }

  /**
   * Where every transaction carries a share count and a non-zero price, the
   * dashboard's volume is the transaction service's total value.
   */
  lemma {:induction false} VolumeMatchesTotalValue(transactions: seq<TransactionService.Txn>)
    requires forall t :: t in transactions ==>
      t.shares.Some? && t.pricePerShare.Some? && t.pricePerShare.value != 0
    ensures TotalVolume(transactions) == TransactionService.CalculateTotalValue(Some(transactions))
  {
    if transactions != [] {
      assert transactions[0] in transactions;
      assert forall t :: t in transactions[1..] ==> t in transactions;
      VolumeMatchesTotalValue(transactions[1..]);
    }
  }

  function SumOwnedDocs(owners: seq<OwnerDoc>): int
  {
    if owners == [] then 0 else OrZero(owners[0].sharesOwned) + SumOwnedDocs(owners[1..])
  }

  /** One stock's share of the market cap: all its shares, sold or not, at its price. */
  function StockCap(stock: StockDoc): int
  {
    (OrZero(stock.shares) + SumOwnedDocs(OwnersOf(stock))) * OrZero(stock.pricePerShare)
  }

  function TotalMarketCap(stocks: seq<StockDoc>): int
  {
    if stocks == [] then 0 else StockCap(stocks[0]) + TotalMarketCap(stocks[1..])
  }

  /** Replacing one stock by another of the same cap leaves the total unchanged. */
  lemma {:induction false} TotalMarketCapUpdate(stocks: seq<StockDoc>, i: nat, d: StockDoc)
    requires i < |stocks| && StockCap(d) == StockCap(stocks[i])
    ensures TotalMarketCap(stocks[i := d]) == TotalMarketCap(stocks)
  {
    if i > 0 {
      assert stocks[i := d][1..] == stocks[1..][i - 1 := d];
      TotalMarketCapUpdate(stocks[1..], i - 1, d);
    }
  }

  /** getSystemStats over the fetched lists. */
  function GetSystemStats(stocks: seq<StockDoc>, transactions: seq<TransactionService.Txn>): (r: SystemStats)
    ensures r.totalStocks == |stocks| && r.totalTransactions == |transactions|
    ensures r.totalInvestors == |InvestorKeys(stocks)| <= OwnerEntryCount(stocks)
    ensures stocks == [] ==> r.totalInvestors == 0 && r.totalMarketCap == 0
    ensures transactions == [] ==> r.totalVolume == 0
    ensures r.totalVolume == TotalVolume(transactions) && r.totalMarketCap == TotalMarketCap(stocks)
    ensures (forall t :: t in transactions ==> t.shares.Some? && t.pricePerShare.Some? && t.pricePerShare.value != 0) ==>
      r.totalVolume == TransactionService.CalculateTotalValue(Some(transactions))
  {
    DistinctInvestorsBound(stocks);
    var r := SystemStats(|stocks|, |InvestorKeys(stocks)|, |transactions|, TotalVolume(transactions), TotalMarketCap(stocks));
    if forall t :: t in transactions ==> t.shares.Some? && t.pricePerShare.Some? && t.pricePerShare.value != 0 then
      VolumeMatchesTotalValue(transactions);
      r
    else r
  }

  // ---------------------------------------------------------------------
  // The dashboard and the settlement engine

  function DocOwners(owners: seq<Ledger.Owner>): (r: seq<OwnerDoc>)
    ensures SumOwnedDocs(r) == Ledger.SumOwned(owners)
  {
    if owners == [] then []
    else
      var rest := DocOwners(owners[1..]);
      assert ([OwnerDoc(Some(owners[0].investor), Some(owners[0].sharesOwned))] + rest)[1..] == rest;
      [OwnerDoc(Some(owners[0].investor), Some(owners[0].sharesOwned))] + rest
  }

  /** A stock record as the dashboard fetches it. */
  function DocOf(st: Ledger.StockRec): StockDoc
  {
    StockDoc(Some(st.shares), Some(st.pricePerShare), Some(DocOwners(st.owners)))
  }

  /** The dashboard values a stock record at every share it has issued times its price. */
  lemma StockCapOfRecord(st: Ledger.StockRec)
    ensures StockCap(DocOf(st)) == Ledger.TotalIssued(st) * st.pricePerShare
  {
  }

  /**
   * No trade moves the dashboard's market cap: buy and sell conserve issued
   * shares and leave pricePerShare as it was.
   */
  lemma TradesKeepMarketCap(stocks: seq<StockDoc>, i: nat, inv: Ledger.InvestorRec, st: Ledger.StockRec, shares: int, now: int)
    requires i < |stocks| && stocks[i] == DocOf(st)
    ensures TotalMarketCap(stocks[i := DocOf(Settlement.BuyTrade(inv, st, shares, now).stock)]) == TotalMarketCap(stocks)
    ensures TotalMarketCap(stocks[i := DocOf(Settlement.SellTrade(inv, st, shares, now).stock)]) == TotalMarketCap(stocks)
  {
    var b := Settlement.BuyTrade(inv, st, shares, now).stock;
    var s := Settlement.SellTrade(inv, st, shares, now).stock;
    Settlement.BuyConservesShares(inv, st, shares, now);
    Settlement.SellConservesShares(inv, st, shares, now);
    StockCapOfRecord(st);
    StockCapOfRecord(b);
    StockCapOfRecord(s);
    TotalMarketCapUpdate(stocks, i, DocOf(b));
    TotalMarketCapUpdate(stocks, i, DocOf(s));
  }
}

=== FILE: formatters.dfy ===
/**
 * The display helpers of the frontend's formatters that decide something:
 * truncation, sign-driven indicator and colour, the profit/loss percentage,
 * the sign prefix of a percentage and the suffix of a compact number.
 * Number-to-text conversion (toFixed, Intl) is not modelled.
 */
module Formatters {
  import opened Wrappers

  const Ellipsis: string := "..."
  const UpArrow: string := "\U{25B2}"
  const DownArrow: string := "\U{25BC}"
  const FlatLine: string := "\U{2500}"
  const Green: string := "text-terminal-green"
  const Red: string := "text-terminal-red"
  const Neutral: string := "text-text-primary"

  /** text.substring(0, n): JavaScript clamps a negative end to 0 and a large one to the length. */
  function Substring(text: string, n: int): (r: string)
    ensures |r| == if n < 0 then 0 else if n > |text| then |text| else n
    ensures r <= text
  {
    if n < 0 then [] else if n > |text| then text else text[..n]
  }

  /**
   * truncateText(text, maxLength): empty stays empty, short enough stays as
   * it is, anything longer keeps its first maxLength characters and gains "...".
   */
  function TruncateText(text: string, maxLength: int): (r: string)
    ensures text == [] ==> r == []
    ensures text != [] && |text| <= maxLength ==> r == text
    ensures text != [] && |text| > maxLength ==>
      var keep := if maxLength < 0 then 0 else maxLength;
      |r| == keep + 3 && r[..keep] == text[..keep] && r[keep..] == Ellipsis
  {
    if text == [] then []
    else if |text| <= maxLength then text
    else Substring(text, maxLength) + Ellipsis
  }

  /** Truncating an already truncated text changes nothing. */
  lemma TruncateIdempotent(text: string, maxLength: int)
    ensures TruncateText(TruncateText(text, maxLength), maxLength) == TruncateText(text, maxLength)
  {
    var r := TruncateText(text, maxLength);
    if text != [] && |text| > maxLength {
      var keep := if maxLength < 0 then 0 else maxLength;
      assert |r| > maxLength;
      var rr := TruncateText(r, maxLength);
      assert r == r[..keep] + r[keep..];
      assert rr == r[..keep] + Ellipsis;
    }
  }

  /** getPriceIndicator: up for a rise, down for a fall, flat otherwise. */
  function GetPriceIndicator(change: real): (r: string)
    ensures r == UpArrow <==> change > 0.0
    ensures r == DownArrow <==> change < 0.0
    ensures r == FlatLine <==> change == 0.0
  {
    if change > 0.0 then UpArrow
    else if change < 0.0 then DownArrow
    else FlatLine
  }

  /** getValueColorClass: green for positive, red for negative, neutral otherwise. */
  function GetValueColorClass(value: real): (r: string)
    ensures r == Green <==> value > 0.0
    ensures r == Red <==> value < 0.0
    ensures r == Neutral <==> value == 0.0
  {
    if value > 0.0 then Green
    else if value < 0.0 then Red
    else Neutral
  }

  /** The arrow and the colour class always tell the same story. */
  lemma IndicatorMatchesColor(x: real)
    ensures GetPriceIndicator(x) == UpArrow <==> GetValueColorClass(x) == Green
    ensures GetPriceIndicator(x) == DownArrow <==> GetValueColorClass(x) == Red
    ensures GetPriceIndicator(x) == FlatLine <==> GetValueColorClass(x) == Neutral
  {
  }

  /**
   * calculateProfitLossPercentage(current, original): 0 when there is no
   * original value, otherwise the change as a percentage of the original.
   */
  function CalculateProfitLossPercentage(current: real, original: real): (r: real)
    ensures original == 0.0 ==> r == 0.0
    ensures original != 0.0 ==> r * original == (current - original) * 100.0
  {
    if original == 0.0 then 0.0
    else ((current - original) / original) * 100.0
  }

  /** With a positive original, the percentage has the sign of the change. */
  lemma PercentageFollowsChange(current: real, original: real)
    requires original > 0.0
    ensures CalculateProfitLossPercentage(current, original) > 0.0 <==> current > original
    ensures CalculateProfitLossPercentage(current, original) < 0.0 <==> current < original
  {
    var r := CalculateProfitLossPercentage(current, original);
    assert r * original == (current - original) * 100.0;
    if r > 0.0 { assert r * original > 0.0; }
    if r < 0.0 { assert r * original < 0.0; }
    if r == 0.0 { assert r * original == 0.0; }
  }

  /** The sign prefix of formatPercentage(value, showSign): "+" only for a present positive value with showSign. */
  function PercentageSign(value: Option<real>, showSign: bool): (r: string)
    ensures r == "+" <==> value.Some? && value.value > 0.0 && showSign
    ensures r == "" <==> !(value.Some? && value.value > 0.0 && showSign)
  {
    match value
    case None => ""
    case Some(v) => if v > 0.0 && showSign then "+" else ""
  }

  /** A "+" prefix appears exactly where the price indicator points up (when signs are shown). */
  lemma PlusSignMatchesUpArrow(v: real)
    ensures PercentageSign(Some(v), true) == "+" <==> GetPriceIndicator(v) == UpArrow
  {
  }

  /** The scale formatCompactNumber divides by and the suffix it appends. */
  datatype Compact = Compact(divisor: real, suffix: string)

  /** formatCompactNumber: B from a billion, M from a million, K from a thousand, otherwise no suffix. */
  function CompactScale(num: Option<real>): (r: Compact)
    ensures r.suffix == "B" <==> num.Some? && num.value >= 1_000_000_000.0
    ensures r.suffix == "M" <==> num.Some? && 1_000_000.0 <= num.value < 1_000_000_000.0
    ensures r.suffix == "K" <==> num.Some? && 1_000.0 <= num.value < 1_000_000.0
    ensures r.suffix == "" <==> num.None? || num.value < 1_000.0
    ensures r.divisor > 0.0
  {
    match num
    case None => Compact(1.0, "")
    case Some(n) =>
      if n >= 1_000_000_000.0 then Compact(1_000_000_000.0, "B")
      else if n >= 1_000_000.0 then Compact(1_000_000.0, "M")
      else if n >= 1_000.0 then Compact(1_000.0, "K")
      else Compact(1.0, "")
  }

  /**
   * Between a thousand and a trillion, the exact quotient num / divisor that
   * toFixed(1) then rounds lies in [1, 1000).
   */
  lemma CompactMantissaInRange(n: real)
    requires 1_000.0 <= n < 1_000_000_000_000.0
    ensures 1.0 <= n / CompactScale(Some(n)).divisor < 1_000.0
  {
  }
}

=== FILE: ledger.dfy ===
/**
 * The records the settlement handlers of utils/stocks.util.js read and write:
 * an Investor (balance and portfolio), a Stock (price, unsold shares and
 * Owners list) and the append-only Transaction log. Money is in whole cents.
 */
module Ledger {
  import Sequences

  type InvestorId = string
  type StockId = string

  /** Schema defaults: a new investor holds 10000 dollars, a new stock costs 100 dollars and has 1000 shares. */
  const DefaultBalance: int := 10000 * 100
  const DefaultPricePerShare: int := 100 * 100
  const DefaultShares: int := 1000

  /** One entry of Investor.portfolio. */
  datatype Holding = Holding(stock: StockId, shares: int)

  /** One entry of Stock.Owners. */
  datatype Owner = Owner(investor: InvestorId, sharesOwned: int)

  datatype TxnType = BUY | SELL

  /** A trade as the handlers write it to the log. */
  datatype Transaction = Transaction(
    investor: InvestorId,
    stock: StockId,
    kind: TxnType,
    shares: int,
    pricePerShare: int,
    timestamp: int)

  /** The value of an Investor record. */
  datatype InvestorRec = InvestorRec(id: InvestorId, balance: int, portfolio: seq<Holding>)

  /** The value of a Stock record; `shares` is the unsold inventory. */
  datatype StockRec = StockRec(id: StockId, pricePerShare: int, shares: int, owners: seq<Owner>)

  /** The findIndex callback of the portfolio lookup: the entry is for this stock. */
  function IsHoldingOf(stock: StockId): Holding -> bool
  {
    (h: Holding) => h.stock == stock
  }

  /** The findIndex callback of the Owners lookup: the entry is for this investor. */
  function IsOwnerEntryOf(investor: InvestorId): Owner -> bool
  {
    (o: Owner) => o.investor == investor
  }

  /** portfolio.findIndex(entry => entry.stock == stock) */
  function HoldingIndex(portfolio: seq<Holding>, stock: StockId): int
  {
    Sequences.FirstIndex(portfolio, IsHoldingOf(stock))
  }

  /** Owners.findIndex(owner => owner.investor == investor) */
  function OwnerIndex(owners: seq<Owner>, investor: InvestorId): int
  {
    Sequences.FirstIndex(owners, IsOwnerEntryOf(investor))
  }

  /** Sum of sharesOwned over an Owners list. */
  function SumOwned(owners: seq<Owner>): int
  {
    if |owners| == 0 then 0 else owners[0].sharesOwned + SumOwned(owners[1..])
  }

  /** Every share a stock has issued: the unsold ones plus those its owners hold. */
  function TotalIssued(st: StockRec): int
  {
    st.shares + SumOwned(st.owners)
  }

  /** Appending an owner adds exactly its shares to the sum. */
  lemma {:induction false} SumOwnedAppend(owners: seq<Owner>, e: Owner)
    ensures SumOwned(owners + [e]) == SumOwned(owners) + e.sharesOwned
  {
    if |owners| > 0 {
      assert (owners + [e])[1..] == owners[1..] + [e];
      SumOwnedAppend(owners[1..], e);
    }
  }

  /** Replacing one owner entry changes the sum by the difference of the two entries. */
  lemma {:induction false} SumOwnedUpdate(owners: seq<Owner>, i: nat, e: Owner)
    requires i < |owners|
    ensures SumOwned(owners[i := e]) == SumOwned(owners) - owners[i].sharesOwned + e.sharesOwned
  {
    if i > 0 {
      assert owners[i := e][1..] == owners[1..][i - 1 := e];
      SumOwnedUpdate(owners[1..], i - 1, e);
    }
  }

  /**
   * The two views of "investor X holds N shares of stock Y" agree for this
   * pair: X appears in Y's Owners exactly when Y appears in X's portfolio,
   * and the first entries found hold the same count.
   */
  predicate ViewsAgree(inv: InvestorRec, st: StockRec)
  {
    var o := OwnerIndex(st.owners, inv.id);
    var h := HoldingIndex(inv.portfolio, st.id);
    (0 <= o <==> 0 <= h) &&
    (0 <= o && 0 <= h ==> st.owners[o].sharesOwned == inv.portfolio[h].shares)
  }

  /** An Investor document; the settlement handlers update its fields in place. */
  class Investor {
    const id: InvestorId
    var balance: int
    var portfolio: seq<Holding>

    /** A fresh investor with the schema's default balance and an empty portfolio. */
    constructor (id: InvestorId)
      ensures Rec() == InvestorRec(id, DefaultBalance, [])
    {
      this.id := id;
      balance := DefaultBalance;
      portfolio := [];
    }

    function Rec(): InvestorRec
      reads this
    {
      InvestorRec(id, balance, portfolio)
    }
  }

  /** A Stock document; the settlement handlers update its fields in place. */
  class Stock {
    const id: StockId
    var pricePerShare: int
    var shares: int
    var owners: seq<Owner>

    /** A fresh stock with the schema's default price and inventory and no owners. */
    constructor (id: StockId)
      ensures Rec() == StockRec(id, DefaultPricePerShare, DefaultShares, [])
    {
      this.id := id;
      pricePerShare := DefaultPricePerShare;
      shares := DefaultShares;
      owners := [];
    }

    function Rec(): StockRec
      reads this
    {
      StockRec(id, pricePerShare, shares, owners)
    }
  }

  /** The Transaction collection: append-only. */
  class TransactionLog {
    var entries: seq<Transaction>

    constructor ()
      ensures entries == []
    {
      entries := [];
    }

    method Append(t: Transaction)
      modifies this
      ensures entries == old(entries) + [t]
    {
      entries := entries + [t];
    }
  }
}

=== FILE: portfolio.dfy ===
/**
 * The pure helpers of the frontend's portfolioService: portfolio value,
 * profit/loss, summary statistics and lookup of a stock's entry.
 * A portfolio that is not an array is None. Money is in whole cents.
 */
module PortfolioService {
  import opened Wrappers
  import Formatters
  import Sequences

  type Id = string

  /** The `stock` field of an entry: missing, a bare id, or a populated stock document. */
  datatype StockField = NoStock | StockRef(id: Id) | StockDoc(id: Id, pricePerShare: Option<int>)

  /** One portfolio entry as the frontend receives it. */
  datatype Item = Item(stock: StockField, shares: Option<int>)

  /** `item.stock?.pricePerShare || 0`: only a populated document carries a price. */
  function ItemPrice(item: Item): int
  {
    match item.stock
    case StockDoc(_, p) => OrZero(p)
    case _ => 0
  }

  function ItemValue(item: Item): int
  {
    ItemPrice(item) * OrZero(item.shares)
  }

  function SumItemValues(s: seq<Item>): int
  {
    if s == [] then 0 else ItemValue(s[0]) + SumItemValues(s[1..])
  }

  /** calculateTotalValue: the sum of price times shares over the entries, 0 for a non-array. */
  function CalculateTotalValue(portfolio: Option<seq<Item>>): (r: int)
    ensures portfolio.None? ==> r == 0
    ensures portfolio.Some? && portfolio.value == [] ==> r == 0
  {
    match portfolio
    case None => 0
    case Some(s) => SumItemValues(s)
  }

  lemma {:induction false} SumItemValuesAppend(a: seq<Item>, b: seq<Item>)
    ensures SumItemValues(a + b) == SumItemValues(a) + SumItemValues(b)
  {
    if a == [] {
      assert a + b == b;
    } else {
      assert (a + b)[1..] == a[1..] + b;
      SumItemValuesAppend(a[1..], b);
    }
  }

  /** Adding an entry adds its price times shares to the value. */
  lemma TotalValueAfterAdding(s: seq<Item>, item: Item)
    ensures CalculateTotalValue(Some(s + [item])) == CalculateTotalValue(Some(s)) + ItemPrice(item) * OrZero(item.shares)
  {
    SumItemValuesAppend(s, [item]);
    assert SumItemValues([item]) == ItemValue(item) + SumItemValues([]);
  }

  /** Non-negative prices and share counts give a non-negative value. */
  lemma {:induction false} TotalValueNonNegative(s: seq<Item>)
    requires forall item :: item in s ==> ItemPrice(item) >= 0 && OrZero(item.shares) >= 0
    ensures CalculateTotalValue(Some(s)) >= 0
  {
    if s != [] {
      assert s[0] in s;
      assert forall item :: item in s[1..] ==> item in s;
      TotalValueNonNegative(s[1..]);
    }
  }

  datatype ProfitLoss = ProfitLoss(amount: int, percentage: real)

  /**
   * calculateProfitLoss(currentPrice, buyPrice, shares): the gain on the
   * holding and that gain as a percentage of what was paid; the percentage is
   * 0 unless what was paid is positive.
   */
  function CalculateProfitLoss(currentPrice: int, buyPrice: int, shares: int): (r: ProfitLoss)
    ensures r.amount == (currentPrice - buyPrice) * shares
    ensures buyPrice * shares <= 0 ==> r.percentage == 0.0
    ensures buyPrice * shares > 0 ==> r.percentage * (buyPrice * shares) as real == (r.amount * 100) as real
  {
    var currentValue := currentPrice * shares;
    var originalValue := buyPrice * shares;
    var amount := currentValue - originalValue;
    var percentage := if originalValue > 0 then (amount as real / originalValue as real) * 100.0 else 0.0;
    ProfitLoss(amount, percentage)
  }

  /** For a positive cost, the portfolio's percentage is the formatter's percentage of the two values. */
  lemma ProfitLossAgreesWithFormatter(currentPrice: int, buyPrice: int, shares: int)
    requires buyPrice * shares > 0
    ensures CalculateProfitLoss(currentPrice, buyPrice, shares).percentage ==
            Formatters.CalculateProfitLossPercentage((currentPrice * shares) as real, (buyPrice * shares) as real)
  {
    var o := (buyPrice * shares) as real;
    var c := (currentPrice * shares) as real;
    var p := CalculateProfitLoss(currentPrice, buyPrice, shares).percentage;
    var f := Formatters.CalculateProfitLossPercentage(c, o);
    assert (currentPrice * shares - buyPrice * shares) as real == c - o;
    assert p * o == (c - o) * 100.0;
    assert f * o == (c - o) * 100.0;
  }

  /**
   * The two percentages differ on a negative cost: the portfolio reports 0,
   * the formatter divides anyway.
   */
  lemma ProfitLossDivergesOnNegativeCost()
    ensures CalculateProfitLoss(2, -1, 1).percentage == 0.0
    ensures Formatters.CalculateProfitLossPercentage(2.0, -1.0) == -300.0
  {
  }

  datatype PortfolioStats = PortfolioStats(
    totalValue: int,
    totalInvested: int,
    numberOfStocks: int,
    availableBalance: int,
    totalAssets: int)

  /**
   * getPortfolioStats(portfolio, balance). `totalInvested` is the balance
   * itself, as written; `numberOfStocks` counts entries (0 for null or undefined).
   */
  function GetPortfolioStats(portfolio: Option<seq<Item>>, balance: int): (r: PortfolioStats)
    ensures r.totalValue == CalculateTotalValue(portfolio)
    ensures r.totalAssets == r.totalValue + balance
    ensures r.availableBalance == balance && r.totalInvested == balance
    ensures r.numberOfStocks == (if portfolio.Some? then |portfolio.value| else 0)
  {
    var totalValue := CalculateTotalValue(portfolio);
    var numberOfStocks := match portfolio case None => 0 case Some(s) => |s|;
    PortfolioStats(totalValue, balance, numberOfStocks, balance, totalValue + balance)
  }

  /** `item.stock?._id === stockId || item.stock === stockId` */
  predicate Names(item: Item, stockId: Id)
  {
    match item.stock
    case NoStock => false
    case StockRef(id) => id == stockId
    case StockDoc(id, _) => id == stockId
  }

  /** Array.prototype.find: the first entry naming the stock, if any. */
  function FindFirst(s: seq<Item>, stockId: Id): (r: Option<Item>)
    ensures r.None? <==> forall i :: 0 <= i < |s| ==> !Names(s[i], stockId)
    ensures r.Some? ==> exists i :: 0 <= i < |s| && s[i] == r.value && Names(s[i], stockId) &&
                                    forall j :: 0 <= j < i ==> !Names(s[j], stockId)
  {
    var k := Sequences.FirstIndex(s, (item: Item) => Names(item, stockId));
    if k < 0 then None else Some(s[k])
  }

  /** findStockInPortfolio: the first entry naming the stock; nothing for a non-array or when none does. */
  function FindStockInPortfolio(portfolio: Option<seq<Item>>, stockId: Id): (r: Option<Item>)
    ensures portfolio.None? ==> r.None?
    ensures portfolio.Some? ==> r == FindFirst(portfolio.value, stockId)
  {
    match portfolio
    case None => None
    case Some(s) => FindFirst(s, stockId)
  }

  /** getSharesOwned: the shares of the first entry naming the stock, or 0. */
  function GetSharesOwned(portfolio: Option<seq<Item>>, stockId: Id): (r: int)
    ensures portfolio.None? ==> r == 0
    ensures portfolio.Some? && (forall i :: 0 <= i < |portfolio.value| ==> !Names(portfolio.value[i], stockId)) ==> r == 0
    ensures portfolio.Some? ==>
      forall i :: 0 <= i < |portfolio.value| && Names(portfolio.value[i], stockId) &&
                  (forall j :: 0 <= j < i ==> !Names(portfolio.value[j], stockId))
                  ==> r == OrZero(portfolio.value[i].shares)
  {
    match FindStockInPortfolio(portfolio, stockId)
    case None => 0
    case Some(item) => OrZero(item.shares)
  }
}

=== FILE: pricing.dfy ===
/**
 * The volume-driven price update of utils/pricing.util.js.
 *
 * Prices are whole cents. The source computes
 *   value * (1 + 0.001 * volume), rounded to cents with Math.round,
 * i.e. the exact new price is value * (1000 + volume) / 1000 cents and
 * Math.round rounds to the nearest integer with halves going up.
 */
module Pricing {

  /** The volume sensitivity k = 0.001, as a denominator. */
  const PerMille: int := 1000

  /**
   * The new value in cents: the cent amount nearest to
   * value * (1000 + volume) / 1000, a half cent rounding up.
   */
  function RoundedPrice(value: int, volume: int): (r: int)
    ensures PerMille * r - 500 <= value * (PerMille + volume) < PerMille * r + 500
  {
    var exact := value * (PerMille + volume);
    (2 * exact + PerMille) / (2 * PerMille)
  }

  /** The rounding bounds above pick exactly one cent amount. */
  lemma RoundedPriceUnique(value: int, volume: int, q: int)
    requires PerMille * q - 500 <= value * (PerMille + volume) < PerMille * q + 500
    ensures q == RoundedPrice(value, volume)
  {
  }

  /** With no volume, a price (already in cents) is unchanged. */
  lemma ZeroVolumeKeepsPrice(value: int)
    ensures RoundedPrice(value, 0) == value
  {
  }

  /** Buying (positive volume) never lowers a positive price. */
  lemma BuyVolumeNeverLowers(value: int, volume: int)
    requires value > 0 && volume >= 0
    ensures RoundedPrice(value, volume) >= value
  {
    assert value * (PerMille + volume) == PerMille * value + value * volume;
    assert value * volume >= 0;
  }

  /** Selling (negative volume) never raises a positive price. */
  lemma SellVolumeNeverRaises(value: int, volume: int)
    requires value > 0 && volume <= 0
    ensures RoundedPrice(value, volume) <= value
  {
    assert value * (PerMille + volume) == PerMille * value + value * volume;
    assert value * volume <= 0;
  }

  /** There is no floor: a volume of -1000 or below takes a positive price to zero or below. */
  lemma NoPriceFloor(value: int, volume: int)
    requires value > 0 && volume <= -PerMille
    ensures RoundedPrice(value, volume) <= 0
  {
    assert value * (PerMille + volume) <= 0;
  }

  /** The record updatePrice works on: its value, share count and market capitalisation. */
  class Startup {
    var value: int
    var totalShares: int
    var marketCap: int

    constructor (value: int, totalShares: int, marketCap: int)
      ensures this.value == value && this.totalShares == totalShares && this.marketCap == marketCap
    {
      this.value := value;
      this.totalShares := totalShares;
      this.marketCap := marketCap;
    }
  }

  /**
   * updatePrice(startup, buyVolume): rewrites value and marketCap of its
   * argument and returns that same record.
   */
  method UpdatePrice(startup: Startup, buyVolume: int) returns (r: Startup)
    modifies startup
    ensures r == startup
    ensures startup.value == RoundedPrice(old(startup.value), buyVolume)
    ensures startup.totalShares == old(startup.totalShares)
    ensures startup.marketCap == startup.totalShares * startup.value
  {
    startup.value := RoundedPrice(startup.value, buyVolume);
    startup.marketCap := startup.totalShares * startup.value;
    r := startup;
  }
}

=== FILE: sequences.dfy ===
/** Array lookups shared by the backend handlers and the frontend services. */
module Sequences {

  /** Array.prototype.findIndex: the position of the first element satisfying p, or -1. */
  function FirstIndex<T>(s: seq<T>, p: T -> bool): (k: int)
    ensures -1 <= k < |s|
    ensures 0 <= k ==> p(s[k])
    ensures 0 <= k ==> forall j :: 0 <= j < k ==> !p(s[j])
    ensures k < 0 ==> forall j :: 0 <= j < |s| ==> !p(s[j])
  {
    if |s| == 0 then -1
    else if p(s[0]) then 0
    else
      var k := FirstIndex(s[1..], p);
      if k < 0 then -1 else k + 1
  }

  /** Pushing a matching element onto an array with no match makes it the first match. */
  lemma {:induction false} FirstIndexAfterAppend<T>(s: seq<T>, p: T -> bool, x: T)
    requires FirstIndex(s, p) < 0 && p(x)
    ensures FirstIndex(s + [x], p) == |s|
  {
    if |s| > 0 {
      assert (s + [x])[1..] == s[1..] + [x];
      FirstIndexAfterAppend(s[1..], p, x);
    }
  }

  /** Overwriting the first match with another matching element keeps it the first match. */
  lemma {:induction false} FirstIndexAfterUpdate<T>(s: seq<T>, p: T -> bool, x: T)
    requires 0 <= FirstIndex(s, p) && p(x)
    ensures FirstIndex(s[FirstIndex(s, p) := x], p) == FirstIndex(s, p)
  {
    var k := FirstIndex(s, p);
    if k > 0 {
      assert s[k := x][1..] == s[1..][k - 1 := x];
      FirstIndexAfterUpdate(s[1..], p, x);
    }
  }

  /** Pushing an element the callback rejects leaves findIndex's answer as it was. */
  lemma {:induction false} FirstIndexAppendOther<T>(s: seq<T>, p: T -> bool, x: T)
    requires !p(x)
    ensures FirstIndex(s + [x], p) == FirstIndex(s, p)
  {
    if |s| > 0 {
      assert (s + [x])[1..] == s[1..] + [x];
      FirstIndexAppendOther(s[1..], p, x);
    }
  }

  /** Overwriting an element with one the callback judges the same way leaves findIndex's answer as it was. */
  lemma {:induction false} FirstIndexUpdateAlike<T>(s: seq<T>, p: T -> bool, i: nat, x: T)
    requires i < |s| && p(x) == p(s[i])
    ensures FirstIndex(s[i := x], p) == FirstIndex(s, p)
  {
    if i > 0 {
      assert s[i := x][1..] == s[1..][i - 1 := x];
      FirstIndexUpdateAlike(s[1..], p, i - 1, x);
    }
  }
}

=== FILE: settlement.dfy ===
/**
 * The trade-settlement handlers `buy` and `sell` of utils/stocks.util.js.
 *
 * Each call loads an Investor and a Stock, validates, updates both records
 * and appends a BUY or SELL transaction, all inside one database session:
 * a call either does all of that or changes nothing. The model takes each
 * call as one atomic step. BuyTrade and SellTrade give the effect of one call
 * on the values of the two records; the methods Buy and Sell perform it in
 * place on the documents and are proved to agree with them.
 *
 * As in the source, the share count is only parsed, never checked to be
 * positive: no check below rejects a count for being zero or negative.
 */
module Settlement {
  import opened Ledger
  import Sequences

  /** Why a trade was rejected. Crashed is the handler's catch block: a lookup that returned -1 was dereferenced. */
  datatype TradeError = NotFound | CannotBuy | DoesNotOwn | NotEnoughShares | Crashed

  datatype Outcome = Done(txn: Transaction) | Rejected(error: TradeError)

  /** The effect of one call: its outcome and the two records afterwards. */
  datatype Trade = Trade(outcome: Outcome, investor: InvestorRec, stock: StockRec)

  /** The log entries a call appends: its transaction if it succeeded, nothing otherwise. */
  function Recorded(outcome: Outcome): seq<Transaction>
  {
    if outcome.Done? then [outcome.txn] else []
  }

  /** The buy handler's `canBuy`: after paying, neither the balance nor the unsold inventory would be negative. */
  function CanBuy(balance: int, pricePerShare: int, shares: int, available: int): (r: bool)
    ensures r <==> balance - shares * pricePerShare >= 0 && available - shares >= 0
  {
    balance >= shares * pricePerShare && shares <= available
  }

  /**
   * buy(investor, stock, shares) on loaded records. A first-time owner gets one
   * new Owners entry and one new portfolio entry; a repeat owner's existing
   * entries grow. updatePrice is called on the Stock document, but it writes
   * `value` and `marketCap` only, so pricePerShare never moves here.
   */
  function BuyTrade(inv: InvestorRec, st: StockRec, shares: int, now: int): (r: Trade)
    ensures r.outcome.Rejected? ==> r.investor == inv && r.stock == st
    ensures r.outcome.Done? <==>
      CanBuy(inv.balance, st.pricePerShare, shares, st.shares) &&
      (0 <= OwnerIndex(st.owners, inv.id) ==> 0 <= HoldingIndex(inv.portfolio, st.id))
    ensures r.outcome == Rejected(CannotBuy) <==> !CanBuy(inv.balance, st.pricePerShare, shares, st.shares)
    ensures r.outcome == Rejected(Crashed) <==>
      CanBuy(inv.balance, st.pricePerShare, shares, st.shares) &&
      0 <= OwnerIndex(st.owners, inv.id) && HoldingIndex(inv.portfolio, st.id) < 0
    ensures r.outcome != Rejected(NotFound) && r.outcome != Rejected(DoesNotOwn) && r.outcome != Rejected(NotEnoughShares)
    ensures r.outcome.Done? ==>
      && r.investor.id == inv.id && r.stock.id == st.id
      && r.investor.balance == inv.balance - shares * st.pricePerShare
      && r.stock.shares == st.shares - shares
      && r.stock.pricePerShare == st.pricePerShare
      && r.outcome.txn == Transaction(inv.id, st.id, BUY, shares, st.pricePerShare, now)
    ensures r.outcome.Done? && OwnerIndex(st.owners, inv.id) < 0 ==>
      && r.stock.owners == st.owners + [Owner(inv.id, shares)]
      && r.investor.portfolio == inv.portfolio + [Holding(st.id, shares)]
    ensures r.outcome.Done? && 0 <= OwnerIndex(st.owners, inv.id) ==>
      var o := OwnerIndex(st.owners, inv.id);
      var h := HoldingIndex(inv.portfolio, st.id);
      && 0 <= h
      && |r.stock.owners| == |st.owners| && |r.investor.portfolio| == |inv.portfolio|
      && r.stock.owners[o] == Owner(inv.id, st.owners[o].sharesOwned + shares)
      && r.investor.portfolio[h] == Holding(st.id, inv.portfolio[h].shares + shares)
      && (forall j :: 0 <= j < |st.owners| && j != o ==> r.stock.owners[j] == st.owners[j])
      && (forall j :: 0 <= j < |inv.portfolio| && j != h ==> r.investor.portfolio[j] == inv.portfolio[j])
  {
    var pricePerShare := st.pricePerShare;
    var price := shares * pricePerShare;
    var canBuy := CanBuy(inv.balance, pricePerShare, shares, st.shares);
    var o := OwnerIndex(st.owners, inv.id);
    var txn := Transaction(inv.id, st.id, BUY, shares, pricePerShare, now);
    if o < 0 then
      if !canBuy then Trade(Rejected(CannotBuy), inv, st)
      else
        Trade(Done(txn),
              inv.(balance := inv.balance - price,
                   portfolio := inv.portfolio + [Holding(st.id, shares)]),
              st.(shares := st.shares - shares,
                  owners := st.owners + [Owner(inv.id, shares)]))
    else
      var h := HoldingIndex(inv.portfolio, st.id);
      if !canBuy then Trade(Rejected(CannotBuy), inv, st)
      else if h < 0 then Trade(Rejected(Crashed), inv, st)
      else
        Trade(Done(txn),
              inv.(balance := inv.balance - price,
                   portfolio := inv.portfolio[h := inv.portfolio[h].(shares := inv.portfolio[h].shares + shares)]),
              st.(shares := st.shares - shares,
                  owners := st.owners[o := st.owners[o].(sharesOwned := st.owners[o].sharesOwned + shares)]))
  }

  /**
   * sell(investor, stock, shares) on loaded records. The payout uses the
   * current pricePerShare; both ownership entries are decremented in place
   * and an entry that reaches 0 stays in its list.
   */
  function SellTrade(inv: InvestorRec, st: StockRec, shares: int, now: int): (r: Trade)
    ensures r.outcome.Rejected? ==> r.investor == inv && r.stock == st
    ensures r.outcome == Rejected(DoesNotOwn) <==> OwnerIndex(st.owners, inv.id) < 0
    ensures r.outcome == Rejected(Crashed) <==>
      0 <= OwnerIndex(st.owners, inv.id) && HoldingIndex(inv.portfolio, st.id) < 0
    ensures r.outcome != Rejected(NotFound) && r.outcome != Rejected(CannotBuy)
    ensures r.outcome == Rejected(NotEnoughShares) <==>
      0 <= OwnerIndex(st.owners, inv.id) && 0 <= HoldingIndex(inv.portfolio, st.id) &&
      inv.portfolio[HoldingIndex(inv.portfolio, st.id)].shares < shares
    ensures r.outcome.Done? <==>
      0 <= OwnerIndex(st.owners, inv.id) && 0 <= HoldingIndex(inv.portfolio, st.id) &&
      inv.portfolio[HoldingIndex(inv.portfolio, st.id)].shares >= shares
    ensures r.outcome.Done? ==>
      var o := OwnerIndex(st.owners, inv.id);
      var h := HoldingIndex(inv.portfolio, st.id);
      && r.investor.id == inv.id && r.stock.id == st.id
      && r.investor.balance == inv.balance + st.pricePerShare * shares
      && r.stock.shares == st.shares + shares
      && r.stock.pricePerShare == st.pricePerShare
      && |r.stock.owners| == |st.owners| && |r.investor.portfolio| == |inv.portfolio|
      && r.stock.owners[o] == Owner(inv.id, st.owners[o].sharesOwned - shares)
      && r.investor.portfolio[h] == Holding(st.id, inv.portfolio[h].shares - shares)
      && (forall j :: 0 <= j < |st.owners| && j != o ==> r.stock.owners[j] == st.owners[j])
      && (forall j :: 0 <= j < |inv.portfolio| && j != h ==> r.investor.portfolio[j] == inv.portfolio[j])
      && r.outcome.txn == Transaction(inv.id, st.id, SELL, shares, st.pricePerShare, now)
  {
    var o := OwnerIndex(st.owners, inv.id);
    if o < 0 then Trade(Rejected(DoesNotOwn), inv, st)
    else
      var h := HoldingIndex(inv.portfolio, st.id);
      if h < 0 then Trade(Rejected(Crashed), inv, st)
      else if !(inv.portfolio[h].shares >= shares) then Trade(Rejected(NotEnoughShares), inv, st)
      else
        var pricePerShare := st.pricePerShare;
        var price := pricePerShare * shares;
        Trade(Done(Transaction(inv.id, st.id, SELL, shares, pricePerShare, now)),
              inv.(balance := inv.balance + price,
                   portfolio := inv.portfolio[h := inv.portfolio[h].(shares := inv.portfolio[h].shares - shares)]),
              st.(shares := st.shares + shares,
                  owners := st.owners[o := st.owners[o].(sharesOwned := st.owners[o].sharesOwned - shares)]))
  }

  // ---------------------------------------------------------------------
  // Invariants of one trade

  /** Every buy, accepted or not, keeps unsold shares plus owned shares constant. */
  lemma BuyConservesShares(inv: InvestorRec, st: StockRec, shares: int, now: int)
    ensures TotalIssued(BuyTrade(inv, st, shares, now).stock) == TotalIssued(st)
  {
    var r := BuyTrade(inv, st, shares, now);
    var o := OwnerIndex(st.owners, inv.id);
    if r.outcome.Done? {
      if o < 0 {
        SumOwnedAppend(st.owners, Owner(inv.id, shares));
      } else {
        SumOwnedUpdate(st.owners, o, r.stock.owners[o]);
        assert r.stock.owners == st.owners[o := r.stock.owners[o]];
      }
    }
  }

  /** Every sell, accepted or not, keeps unsold shares plus owned shares constant. */
  lemma SellConservesShares(inv: InvestorRec, st: StockRec, shares: int, now: int)
    ensures TotalIssued(SellTrade(inv, st, shares, now).stock) == TotalIssued(st)
  {
    var r := SellTrade(inv, st, shares, now);
    var o := OwnerIndex(st.owners, inv.id);
    if r.outcome.Done? {
      SumOwnedUpdate(st.owners, o, r.stock.owners[o]);
      assert r.stock.owners == st.owners[o := r.stock.owners[o]];
    }
  }

  /** A buy between records whose views agree leaves them agreeing, and never crashes. */
  lemma BuyKeepsViewsAgreeing(inv: InvestorRec, st: StockRec, shares: int, now: int)
    requires ViewsAgree(inv, st)
    ensures BuyTrade(inv, st, shares, now).outcome != Rejected(Crashed)
    ensures ViewsAgree(BuyTrade(inv, st, shares, now).investor, BuyTrade(inv, st, shares, now).stock)
  {
    var r := BuyTrade(inv, st, shares, now);
    var o := OwnerIndex(st.owners, inv.id);
    var h := HoldingIndex(inv.portfolio, st.id);
    if r.outcome.Done? {
      if o < 0 {
        Sequences.FirstIndexAfterAppend(st.owners, IsOwnerEntryOf(inv.id), Owner(inv.id, shares));
        Sequences.FirstIndexAfterAppend(inv.portfolio, IsHoldingOf(st.id), Holding(st.id, shares));
      } else {
        Sequences.FirstIndexAfterUpdate(st.owners, IsOwnerEntryOf(inv.id), Owner(inv.id, st.owners[o].sharesOwned + shares));
        assert r.stock.owners == st.owners[o := Owner(inv.id, st.owners[o].sharesOwned + shares)];
        Sequences.FirstIndexAfterUpdate(inv.portfolio, IsHoldingOf(st.id), Holding(st.id, inv.portfolio[h].shares + shares));
        assert r.investor.portfolio == inv.portfolio[h := Holding(st.id, inv.portfolio[h].shares + shares)];
      }
    }
  }

  /** A sell between records whose views agree leaves them agreeing, and never crashes. */
  lemma SellKeepsViewsAgreeing(inv: InvestorRec, st: StockRec, shares: int, now: int)
    requires ViewsAgree(inv, st)
    ensures SellTrade(inv, st, shares, now).outcome != Rejected(Crashed)
    ensures ViewsAgree(SellTrade(inv, st, shares, now).investor, SellTrade(inv, st, shares, now).stock)
  {
    var r := SellTrade(inv, st, shares, now);
    var o := OwnerIndex(st.owners, inv.id);
    var h := HoldingIndex(inv.portfolio, st.id);
    if r.outcome.Done? {
      Sequences.FirstIndexAfterUpdate(st.owners, IsOwnerEntryOf(inv.id), Owner(inv.id, st.owners[o].sharesOwned - shares));
      assert r.stock.owners == st.owners[o := Owner(inv.id, st.owners[o].sharesOwned - shares)];
      Sequences.FirstIndexAfterUpdate(inv.portfolio, IsHoldingOf(st.id), Holding(st.id, inv.portfolio[h].shares - shares));
      assert r.investor.portfolio == inv.portfolio[h := Holding(st.id, inv.portfolio[h].shares - shares)];
    }
  }

  /**
   * A buy touches only the traded pair: the investor's lookup of any other
   * stock and the stock's lookup of any other investor give the same index as
   * before, so whether the two views agree for those other pairs is unchanged.
   */
  lemma BuyKeepsOtherPairs(inv: InvestorRec, st: StockRec, shares: int, now: int, inv2: InvestorRec, st2: StockRec)
    requires st2.id != st.id && inv2.id != inv.id
    ensures HoldingIndex(BuyTrade(inv, st, shares, now).investor.portfolio, st2.id) == HoldingIndex(inv.portfolio, st2.id)
    ensures OwnerIndex(BuyTrade(inv, st, shares, now).stock.owners, inv2.id) == OwnerIndex(st.owners, inv2.id)
    ensures ViewsAgree(BuyTrade(inv, st, shares, now).investor, st2) <==> ViewsAgree(inv, st2)
    ensures ViewsAgree(inv2, BuyTrade(inv, st, shares, now).stock) <==> ViewsAgree(inv2, st)
  {
    var r := BuyTrade(inv, st, shares, now);
    var o := OwnerIndex(st.owners, inv.id);
    var h := HoldingIndex(inv.portfolio, st.id);
    if r.outcome.Done? {
      if o < 0 {
        Sequences.FirstIndexAppendOther(inv.portfolio, IsHoldingOf(st2.id), Holding(st.id, shares));
        Sequences.FirstIndexAppendOther(st.owners, IsOwnerEntryOf(inv2.id), Owner(inv.id, shares));
      } else {
        assert r.investor.portfolio == inv.portfolio[h := r.investor.portfolio[h]];
        Sequences.FirstIndexUpdateAlike(inv.portfolio, IsHoldingOf(st2.id), h, r.investor.portfolio[h]);
        assert r.stock.owners == st.owners[o := r.stock.owners[o]];
        Sequences.FirstIndexUpdateAlike(st.owners, IsOwnerEntryOf(inv2.id), o, r.stock.owners[o]);
      }
    }
  }

  /** The same for a sell: other stocks and other investors keep their lookups and their agreement. */
  lemma SellKeepsOtherPairs(inv: InvestorRec, st: StockRec, shares: int, now: int, inv2: InvestorRec, st2: StockRec)
    requires st2.id != st.id && inv2.id != inv.id
    ensures HoldingIndex(SellTrade(inv, st, shares, now).investor.portfolio, st2.id) == HoldingIndex(inv.portfolio, st2.id)
    ensures OwnerIndex(SellTrade(inv, st, shares, now).stock.owners, inv2.id) == OwnerIndex(st.owners, inv2.id)
    ensures ViewsAgree(SellTrade(inv, st, shares, now).investor, st2) <==> ViewsAgree(inv, st2)
    ensures ViewsAgree(inv2, SellTrade(inv, st, shares, now).stock) <==> ViewsAgree(inv2, st)
  {
    var r := SellTrade(inv, st, shares, now);
    var o := OwnerIndex(st.owners, inv.id);
    var h := HoldingIndex(inv.portfolio, st.id);
    if r.outcome.Done? {
      assert r.investor.portfolio == inv.portfolio[h := r.investor.portfolio[h]];
      Sequences.FirstIndexUpdateAlike(inv.portfolio, IsHoldingOf(st2.id), h, r.investor.portfolio[h]);
      assert r.stock.owners == st.owners[o := r.stock.owners[o]];
      Sequences.FirstIndexUpdateAlike(st.owners, IsOwnerEntryOf(inv2.id), o, r.stock.owners[o]);
    }
  }

  /** An accepted buy never overdraws: the balance stays non-negative. */
  lemma BuyKeepsBalanceNonNegative(inv: InvestorRec, st: StockRec, shares: int, now: int)
    requires inv.balance >= 0
    ensures BuyTrade(inv, st, shares, now).investor.balance >= 0
  {
  }

  /** A sell of a non-negative count at a non-negative price never lowers the balance. */
  lemma SellNeverLowersBalance(inv: InvestorRec, st: StockRec, shares: int, now: int)
    requires shares >= 0 && st.pricePerShare >= 0
    ensures SellTrade(inv, st, shares, now).investor.balance >= inv.balance
  {
  }

  /**
   * Without a positivity check, selling -1 share is accepted: the balance of
   * an investor with nothing in cash goes negative and the holding grows.
   */
  lemma NegativeSellOverdraws()
    ensures
      var inv := InvestorRec("i1", 0, [Holding("s7", 5)]);
      var st := StockRec("s7", 10000, 995, [Owner("i1", 5)]);
      var r := SellTrade(inv, st, -1, 0);
      r.outcome.Done? && r.investor.balance == -10000 && r.investor.portfolio == [Holding("s7", 6)]
  {
    var inv := InvestorRec("i1", 0, [Holding("s7", 5)]);
    var st := StockRec("s7", 10000, 995, [Owner("i1", 5)]);
    assert OwnerIndex(st.owners, "i1") == 0;
    assert HoldingIndex(inv.portfolio, "s7") == 0;
  }

  /**
   * Buying n shares and then selling them again restores the balance and the
   * unsold inventory exactly, since pricePerShare does not move in between.
   * A repeat owner gets both records back unchanged; a first-time owner keeps
   * zero-share entries at the end of both lists.
   */
  lemma BuyThenSellRestores(inv: InvestorRec, st: StockRec, n: int, t1: int, t2: int)
    requires ViewsAgree(inv, st)
    requires 0 <= HoldingIndex(inv.portfolio, st.id) ==> inv.portfolio[HoldingIndex(inv.portfolio, st.id)].shares >= 0
    requires BuyTrade(inv, st, n, t1).outcome.Done?
    ensures
      var b := BuyTrade(inv, st, n, t1);
      var s := SellTrade(b.investor, b.stock, n, t2);
      && s.outcome.Done?
      && s.investor.balance == inv.balance
      && s.stock.shares == st.shares
      && (0 <= OwnerIndex(st.owners, inv.id) ==> s.investor == inv && s.stock == st)
      && (OwnerIndex(st.owners, inv.id) < 0 ==>
            && s.investor.portfolio == inv.portfolio + [Holding(st.id, 0)]
            && s.stock.owners == st.owners + [Owner(inv.id, 0)])
  {
    var b := BuyTrade(inv, st, n, t1);
    var o := OwnerIndex(st.owners, inv.id);
    var h := HoldingIndex(inv.portfolio, st.id);
    if o < 0 {
      Sequences.FirstIndexAfterAppend(st.owners, IsOwnerEntryOf(inv.id), Owner(inv.id, n));
      Sequences.FirstIndexAfterAppend(inv.portfolio, IsHoldingOf(st.id), Holding(st.id, n));
      var s := SellTrade(b.investor, b.stock, n, t2);
      assert s.investor.portfolio == inv.portfolio + [Holding(st.id, 0)];
      assert s.stock.owners == st.owners + [Owner(inv.id, 0)];
    } else {
      Sequences.FirstIndexAfterUpdate(st.owners, IsOwnerEntryOf(inv.id), Owner(inv.id, st.owners[o].sharesOwned + n));
      assert b.stock.owners == st.owners[o := Owner(inv.id, st.owners[o].sharesOwned + n)];
      Sequences.FirstIndexAfterUpdate(inv.portfolio, IsHoldingOf(st.id), Holding(st.id, inv.portfolio[h].shares + n));
      assert b.investor.portfolio == inv.portfolio[h := Holding(st.id, inv.portfolio[h].shares + n)];
      var s := SellTrade(b.investor, b.stock, n, t2);
      assert s.investor.portfolio == inv.portfolio;
      assert s.stock.owners == st.owners;
    }
  }

  // ---------------------------------------------------------------------
  // The handlers, on the documents in place

  /**
   * buy: a null investor or stock is a findById miss. Otherwise the records
   * and the log end up exactly as BuyTrade says.
   */
  method Buy(investor: Investor?, stock: Stock?, shares: int, log: TransactionLog, now: int) returns (outcome: Outcome)
    modifies investor, stock, log
    ensures investor == null || stock == null ==>
      && outcome == Rejected(NotFound)
      && log.entries == old(log.entries)
      && (investor != null ==> unchanged(investor))
      && (stock != null ==> unchanged(stock))
    ensures investor != null && stock != null ==>
      var t := BuyTrade(old(investor.Rec()), old(stock.Rec()), shares, now);
      && outcome == t.outcome
      && investor.Rec() == t.investor
      && stock.Rec() == t.stock
      && log.entries == old(log.entries) + Recorded(t.outcome)
  {
    if investor == null || stock == null {
      return Rejected(NotFound);
    }
    var pricePerShare := stock.pricePerShare;
    var price := shares * pricePerShare;
    var canBuy := CanBuy(investor.balance, pricePerShare, shares, stock.shares);
    var index := OwnerIndex(stock.owners, investor.id);
    if index < 0 {
      if !canBuy {
        return Rejected(CannotBuy);
      }
      investor.balance := investor.balance - price;
      stock.shares := stock.shares - shares;
      stock.owners := stock.owners + [Owner(investor.id, shares)];
      investor.portfolio := investor.portfolio + [Holding(stock.id, shares)];
      // updatePrice(Stock, Shares) writes only `value` and `marketCap`: nothing modelled here changes.
    } else {
      var investorIndex := HoldingIndex(investor.portfolio, stock.id);
      if !canBuy {
        return Rejected(CannotBuy);
      }
      if investorIndex < 0 {
        // portfolio[-1].shares throws; the catch block aborts the session, so nothing is persisted.
        return Rejected(Crashed);
      }
      investor.balance := investor.balance - price;
      var held := investor.portfolio[investorIndex];
      investor.portfolio := investor.portfolio[investorIndex := held.(shares := held.shares + shares)];
      var owner := stock.owners[index];
      stock.owners := stock.owners[index := owner.(sharesOwned := owner.sharesOwned + shares)];
      stock.shares := stock.shares - shares;
    }
    var txn := Transaction(investor.id, stock.id, BUY, shares, pricePerShare, now);
    log.Append(txn);
    outcome := Done(txn);
  }

  /**
   * sell: a null investor or stock is a findById miss. Otherwise the records
   * and the log end up exactly as SellTrade says.
   */
  method Sell(investor: Investor?, stock: Stock?, shares: int, log: TransactionLog, now: int) returns (outcome: Outcome)
    modifies investor, stock, log
    ensures investor == null || stock == null ==>
      && outcome == Rejected(NotFound)
      && log.entries == old(log.entries)
      && (investor != null ==> unchanged(investor))
      && (stock != null ==> unchanged(stock))
    ensures investor != null && stock != null ==>
      var t := SellTrade(old(investor.Rec()), old(stock.Rec()), shares, now);
      && outcome == t.outcome
      && investor.Rec() == t.investor
      && stock.Rec() == t.stock
      && log.entries == old(log.entries) + Recorded(t.outcome)
  {
    if investor == null || stock == null {
      return Rejected(NotFound);
    }
    var ownerIndex := OwnerIndex(stock.owners, investor.id);
    if ownerIndex < 0 {
      return Rejected(DoesNotOwn);
    }
    var stockIndex := HoldingIndex(investor.portfolio, stock.id);
    if stockIndex < 0 {
      // portfolio[-1].shares throws; the catch block aborts the session, so nothing is persisted.
      return Rejected(Crashed);
    }
    var canSell := investor.portfolio[stockIndex].shares >= shares;
    if !canSell {
      return Rejected(NotEnoughShares);
    }
    var pricePerShare := stock.pricePerShare;
    var price := pricePerShare * shares;
    investor.balance := investor.balance + price;
    stock.shares := stock.shares + shares;
    var held := investor.portfolio[stockIndex];
    investor.portfolio := investor.portfolio[stockIndex := held.(shares := held.shares - shares)];
    var owner := stock.owners[ownerIndex];
    stock.owners := stock.owners[ownerIndex := owner.(sharesOwned := owner.sharesOwned - shares)];
    // updatePrice(Stock, -Shares) writes only `value` and `marketCap`: nothing modelled here changes.
    var txn := Transaction(investor.id, stock.id, SELL, shares, pricePerShare, now);
    log.Append(txn);
    outcome := Done(txn);
  }
}

=== FILE: stockservice.dfy ===
/**
 * The purchase checks of the frontend's stockService, which mirror the
 * backend's `canBuy`. Money is in whole cents.
 */
module StockService {
  import Settlement

  /** calculateTotalCost(pricePerShare, shares): nothing to pay exactly when a factor is 0, never negative for non-negative factors. */
  function CalculateTotalCost(pricePerShare: int, shares: int): (r: int)
    ensures r == 0 <==> pricePerShare == 0 || shares == 0
    ensures pricePerShare >= 0 && shares >= 0 ==> r >= 0
  {
    pricePerShare * shares
  }

  /** canAffordPurchase(balance, totalCost): paying would leave a non-negative balance. */
  function CanAffordPurchase(balance: int, totalCost: int): (r: bool)
    ensures r <==> balance - totalCost >= 0
  {
    balance >= totalCost
  }

  /** hasEnoughShares(availableShares, requestedShares): the purchase would leave a non-negative unsold inventory. */
  function HasEnoughShares(availableShares: int, requestedShares: int): (r: bool)
    ensures r <==> availableShares - requestedShares >= 0
  {
    availableShares >= requestedShares
  }

  /** The two frontend checks together accept exactly what the buy handler's canBuy accepts. */
  lemma MirrorsBackendCanBuy(balance: int, pricePerShare: int, shares: int, available: int)
    ensures CanAffordPurchase(balance, CalculateTotalCost(pricePerShare, shares)) && HasEnoughShares(available, shares)
            <==> Settlement.CanBuy(balance, pricePerShare, shares, available)
  {
  }

  /** At a positive price, a balance affords exactly the counts up to balance / price (rounded down). */
  lemma AffordableShares(balance: int, pricePerShare: int, shares: int)
    requires pricePerShare > 0
    ensures CanAffordPurchase(balance, CalculateTotalCost(pricePerShare, shares)) <==> shares <= balance / pricePerShare
  {
    var q := balance / pricePerShare;
    assert balance == q * pricePerShare + balance % pricePerShare;
    if shares <= q {
      assert (q - shares) * pricePerShare >= 0;
      assert shares * pricePerShare <= q * pricePerShare;
    } else {
      assert (shares - q - 1) * pricePerShare >= 0;
      assert shares * pricePerShare >= (q + 1) * pricePerShare;
    }
  }
}

=== FILE: transactions.dfy ===
/**
 * The pure helpers of the frontend's transactionService: filters, date
 * sorts, total value and statistics over a transaction list. A list that is
 * not an array (null, undefined, anything else) is None.
 */
module TransactionService {
  import opened Wrappers

  type Id = string

  /**
   * A transaction as the frontend receives it. A reference field holds the
   * referenced id whether the server sent a bare id or a populated document;
   * `stock` and `startup` are both read because the schema calls the field
   * `startup`. Timestamps are abstract comparable instants.
   */
  datatype Txn = Txn(
    investor: Option<Id>,
    stock: Option<Id>,
    startup: Option<Id>,
    kind: string,
    shares: Option<int>,
    pricePerShare: Option<int>,
    value: Option<int>,
    timestamp: int)

  /** `s` keeps the elements of `r` in their order, possibly with others between them. */
  predicate IsSubsequence<T(==,!new)>(r: seq<T>, s: seq<T>)
  {
    if r == [] then true
    else if s == [] then false
    else if r[0] == s[0] then IsSubsequence(r[1..], s[1..])
    else IsSubsequence(r, s[1..])
  }

  /** Array.prototype.filter: the elements satisfying p, in order. */
  function Filter<T(==,!new)>(s: seq<T>, p: T -> bool): (r: seq<T>)
    ensures |r| <= |s|
    ensures forall x :: x in r <==> x in s && p(x)
    ensures IsSubsequence(r, s)
    ensures forall x :: multiset(r)[x] == if p(x) then multiset(s)[x] else 0
  {
    if s == [] then []
    else
      assert s == [s[0]] + s[1..];
      if p(s[0]) then
        var rest := Filter(s[1..], p);
        assert ([s[0]] + rest)[1..] == rest;
        [s[0]] + rest
      else Filter(s[1..], p)
  }

  /** Filtering a concatenation filters each part. */
  lemma {:induction false} FilterAppend<T(!new)>(a: seq<T>, b: seq<T>, p: T -> bool)
    ensures Filter(a + b, p) == Filter(a, p) + Filter(b, p)
  {
    if a == [] {
      assert a + b == b;
    } else {
      assert (a + b)[0] == a[0];
      assert (a + b)[1..] == a[1..] + b;
      FilterAppend(a[1..], b, p);
    }
  }

  /** Filtering twice with the same test changes nothing more. */
  lemma {:induction false} FilterIdempotent<T(!new)>(s: seq<T>, p: T -> bool)
    ensures Filter(Filter(s, p), p) == Filter(s, p)
  {
    if s != [] {
      FilterIdempotent(s[1..], p);
      if p(s[0]) {
        assert ([s[0]] + Filter(s[1..], p))[1..] == Filter(s[1..], p);
      }
    }
  }

  /** Two tests that never both hold split a list at most into its length. */
  lemma {:induction false} FilterDisjointCount<T(!new)>(s: seq<T>, p: T -> bool, q: T -> bool)
    requires forall x :: x in s ==> !(p(x) && q(x))
    ensures |Filter(s, p)| + |Filter(s, q)| <= |s|
    ensures (forall x :: x in s ==> p(x) || q(x)) ==> |Filter(s, p)| + |Filter(s, q)| == |s|
  {
    if s != [] {
      assert forall x :: x in s[1..] ==> x in s;
      FilterDisjointCount(s[1..], p, q);
    }
  }

  predicate ByInvestor(t: Txn, investorId: Id) { t.investor == Some(investorId) }
  predicate ByStock(t: Txn, stockId: Id) { t.stock == Some(stockId) || t.startup == Some(stockId) }
  predicate OfType(t: Txn, kind: string) { t.kind == kind }
  predicate InRange(t: Txn, startDate: int, endDate: int) { startDate <= t.timestamp <= endDate }

  /** filterByInvestor: the investor's transactions, in order. */
  function FilterByInvestor(transactions: Option<seq<Txn>>, investorId: Id): (r: seq<Txn>)
    ensures transactions.None? ==> r == []
    ensures transactions.Some? ==>
      IsSubsequence(r, transactions.value) &&
      forall t :: t in r <==> t in transactions.value && t.investor == Some(investorId)
    ensures transactions.Some? ==>
      forall t :: multiset(r)[t] == if t.investor == Some(investorId) then multiset(transactions.value)[t] else 0
  {
    match transactions
    case None => []
    case Some(s) => Filter(s, t => ByInvestor(t, investorId))
  }

  /** filterByStock: the transactions naming the stock under `stock` or `startup`, in order. */
  function FilterByStock(transactions: Option<seq<Txn>>, stockId: Id): (r: seq<Txn>)
    ensures transactions.None? ==> r == []
    ensures transactions.Some? ==>
      IsSubsequence(r, transactions.value) &&
      forall t :: t in r <==> t in transactions.value && (t.stock == Some(stockId) || t.startup == Some(stockId))
    ensures transactions.Some? ==>
      forall t :: multiset(r)[t] == if (t.stock == Some(stockId) || t.startup == Some(stockId)) then multiset(transactions.value)[t] else 0
  {
    match transactions
    case None => []
    case Some(s) => Filter(s, t => ByStock(t, stockId))
  }

  /** filterByType: the transactions of one type ("BUY" or "SELL"), in order. */
  function FilterByType(transactions: Option<seq<Txn>>, kind: string): (r: seq<Txn>)
    ensures transactions.None? ==> r == []
    ensures transactions.Some? ==>
      IsSubsequence(r, transactions.value) &&
      forall t :: t in r <==> t in transactions.value && t.kind == kind
    ensures transactions.Some? ==>
      forall t :: multiset(r)[t] == if t.kind == kind then multiset(transactions.value)[t] else 0
  {
    match transactions
    case None => []
    case Some(s) => Filter(s, t => OfType(t, kind))
  }

  /** filterByDateRange: the transactions stamped within [startDate, endDate], both ends included. */
  function FilterByDateRange(transactions: Option<seq<Txn>>, startDate: int, endDate: int): (r: seq<Txn>)
    ensures transactions.None? ==> r == []
    ensures transactions.Some? ==>
      IsSubsequence(r, transactions.value) &&
      forall t :: t in r <==> t in transactions.value && startDate <= t.timestamp <= endDate
    ensures transactions.Some? ==>
      forall t :: multiset(r)[t] == if startDate <= t.timestamp <= endDate then multiset(transactions.value)[t] else 0
  {
    match transactions
    case None => []
    case Some(s) => Filter(s, t => InRange(t, startDate, endDate))
  }

  // ---------------------------------------------------------------------
  // Sorting a copy by timestamp

  /** `a` may come before `b`: oldest first, or newest first. */
  predicate Before(a: Txn, b: Txn, newestFirst: bool)
  {
    if newestFirst then a.timestamp >= b.timestamp else a.timestamp <= b.timestamp
  }

  predicate SortedByDate(s: seq<Txn>, newestFirst: bool)
  {
    forall i, j :: 0 <= i < j < |s| ==> Before(s[i], s[j], newestFirst)
  }

  /** Inserts t ahead of the first element it may precede. */
  function InsertByDate(t: Txn, s: seq<Txn>, newestFirst: bool): (r: seq<Txn>)
    requires SortedByDate(s, newestFirst)
    ensures |r| == |s| + 1
    ensures forall x :: x in r ==> x == t || x in s
    ensures SortedByDate(r, newestFirst)
    ensures multiset(r) == multiset(s) + multiset{t}
  {
    if s == [] || Before(t, s[0], newestFirst) then [t] + s
    else
      var rest := InsertByDate(t, s[1..], newestFirst);
      InsertAfterHead(t, s, rest, newestFirst);
      assert s == [s[0]] + s[1..];
      [s[0]] + rest
  }

  /** The head of a sorted list that t may not precede may precede everything t is inserted among. */
  lemma InsertAfterHead(t: Txn, s: seq<Txn>, rest: seq<Txn>, newestFirst: bool)
    requires s != [] && SortedByDate(s, newestFirst) && !Before(t, s[0], newestFirst)
    requires SortedByDate(rest, newestFirst)
    requires forall x :: x in rest ==> x == t || x in s[1..]
    ensures SortedByDate([s[0]] + rest, newestFirst)
  {
    forall x | x in rest
      ensures Before(s[0], x, newestFirst)
    {
      if x != t {
        var k :| 0 <= k < |s[1..]| && s[1..][k] == x;
        assert s[k + 1] == x;
      }
    }
    var r := [s[0]] + rest;
    forall i, j | 0 <= i < j < |r|
      ensures Before(r[i], r[j], newestFirst)
    {
      if i == 0 {
        assert r[j] == rest[j - 1];
        assert rest[j - 1] in rest;
      } else {
        assert r[i] == rest[i - 1] && r[j] == rest[j - 1];
      }
    }
  }

  /** The sort of a copy: insertion sort, one element at a time. */
  function SortByDate(s: seq<Txn>, newestFirst: bool): (r: seq<Txn>)
    ensures SortedByDate(r, newestFirst)
    ensures multiset(r) == multiset(s)
  {
    if s == [] then []
    else
      assert s == [s[0]] + s[1..];
      InsertByDate(s[0], SortByDate(s[1..], newestFirst), newestFirst)
  }

  /** The transactions stamped `ts`, in their order. */
  function Ties(s: seq<Txn>, ts: int): seq<Txn>
  {
    if s == [] then []
    else if s[0].timestamp == ts then [s[0]] + Ties(s[1..], ts)
    else Ties(s[1..], ts)
  }

  lemma {:induction false} TiesAppend(a: seq<Txn>, b: seq<Txn>, ts: int)
    ensures Ties(a + b, ts) == Ties(a, ts) + Ties(b, ts)
  {
    if a == [] {
      assert a + b == b;
    } else {
      assert (a + b)[0] == a[0];
      assert (a + b)[1..] == a[1..] + b;
      TiesAppend(a[1..], b, ts);
    }
  }

  /** Insertion puts t ahead of every element stamped like it. */
  lemma {:induction false} InsertKeepsTies(t: Txn, s: seq<Txn>, newestFirst: bool, ts: int)
    requires SortedByDate(s, newestFirst)
    ensures Ties(InsertByDate(t, s, newestFirst), ts) == Ties([t], ts) + Ties(s, ts)
  {
    if s == [] || Before(t, s[0], newestFirst) {
      TiesAppend([t], s, ts);
    } else {
      var rest := InsertByDate(t, s[1..], newestFirst);
      InsertKeepsTies(t, s[1..], newestFirst, ts);
      TiesAppend([s[0]], rest, ts);
      TiesAppend([s[0]], s[1..], ts);
      assert s == [s[0]] + s[1..];
      assert s[0].timestamp != t.timestamp;
    }
  }

  /** The sort is stable: transactions with the same timestamp keep their input order. */
  lemma {:induction false} SortByDateStable(s: seq<Txn>, newestFirst: bool)
    ensures forall ts :: Ties(SortByDate(s, newestFirst), ts) == Ties(s, ts)
  {
    if s != [] {
      SortByDateStable(s[1..], newestFirst);
      forall ts
        ensures Ties(SortByDate(s, newestFirst), ts) == Ties(s, ts)
      {
        InsertKeepsTies(s[0], SortByDate(s[1..], newestFirst), newestFirst, ts);
        TiesAppend([s[0]], s[1..], ts);
        assert s == [s[0]] + s[1..];
      }
    }
  }

  /**
   * sortByDateDesc: a newest-first permutation of the input, equal timestamps
   * in their input order. The input is a value and stays as it was.
   */
  function SortByDateDesc(transactions: Option<seq<Txn>>): (r: seq<Txn>)
    ensures transactions.None? ==> r == []
    ensures transactions.Some? ==> multiset(r) == multiset(transactions.value) && |r| == |transactions.value|
    ensures forall i, j :: 0 <= i < j < |r| ==> r[i].timestamp >= r[j].timestamp
    ensures transactions.Some? ==> forall ts :: Ties(r, ts) == Ties(transactions.value, ts)
  {
    match transactions
    case None => []
    case Some(s) =>
      var r := SortByDate(s, true);
      assert |r| == |multiset(r)| == |multiset(s)| == |s|;
      SortByDateStable(s, true);
      r
  }

  /** sortByDateAsc: an oldest-first permutation of the input, equal timestamps in their input order. */
  function SortByDateAsc(transactions: Option<seq<Txn>>): (r: seq<Txn>)
    ensures transactions.None? ==> r == []
    ensures transactions.Some? ==> multiset(r) == multiset(transactions.value) && |r| == |transactions.value|
    ensures forall i, j :: 0 <= i < j < |r| ==> r[i].timestamp <= r[j].timestamp
    ensures transactions.Some? ==> forall ts :: Ties(r, ts) == Ties(transactions.value, ts)
  {
    match transactions
    case None => []
    case Some(s) =>
      var r := SortByDate(s, false);
      assert |r| == |multiset(r)| == |multiset(s)| == |s|;
      SortByDateStable(s, false);
      r
  }

  // ---------------------------------------------------------------------
  // Value and statistics

  /** `(txn.pricePerShare || txn.value || 0)`: a missing or zero price falls back to `value`. */
  function EffectivePrice(t: Txn): int
  {
    if t.pricePerShare.Some? && t.pricePerShare.value != 0 then t.pricePerShare.value
    else OrZero(t.value)
  }

  /** One transaction's contribution to the total. */
  function TxnValue(t: Txn): int
  {
    EffectivePrice(t) * OrZero(t.shares)
  }

  function SumValues(s: seq<Txn>): int
  {
    if s == [] then 0 else TxnValue(s[0]) + SumValues(s[1..])
  }

  lemma {:induction false} SumValuesAppend(a: seq<Txn>, b: seq<Txn>)
    ensures SumValues(a + b) == SumValues(a) + SumValues(b)
  {
    if a == [] {
      assert a + b == b;
    } else {
      assert (a + b)[1..] == a[1..] + b;
      SumValuesAppend(a[1..], b);
    }
  }

  /** calculateTotalValue: the sum of price times shares, 0 for a non-array. */
  function CalculateTotalValue(transactions: Option<seq<Txn>>): (r: int)
    ensures transactions.None? ==> r == 0
    ensures transactions == Some([]) ==> r == 0
  {
    match transactions
    case None => 0
    case Some(s) => SumValues(s)
  }

  /**
   * Each transaction adds (pricePerShare || value || 0) * (shares || 0):
   * a missing or zero price falls back to `value`, a missing count reads as 0.
   */
  lemma TotalValueAfterAdding(s: seq<Txn>, t: Txn)
    ensures CalculateTotalValue(Some(s + [t])) ==
      CalculateTotalValue(Some(s)) +
      (if t.pricePerShare.Some? && t.pricePerShare.value != 0 then t.pricePerShare.value else OrZero(t.value)) *
      OrZero(t.shares)
  {
    SumValuesAppend(s, [t]);
  }

  /** The total of two lists joined is the sum of their totals. */
  lemma TotalValueOfConcat(a: seq<Txn>, b: seq<Txn>)
    ensures CalculateTotalValue(Some(a + b)) == CalculateTotalValue(Some(a)) + CalculateTotalValue(Some(b))
  {
    SumValuesAppend(a, b);
  }

  /** Non-negative prices and counts give a non-negative total. */
  lemma {:induction false} TotalValueNonNegative(s: seq<Txn>)
    requires forall t :: t in s ==> EffectivePrice(t) >= 0 && OrZero(t.shares) >= 0
    ensures CalculateTotalValue(Some(s)) >= 0
  {
    if s != [] {
      assert s[0] in s;
      assert forall t :: t in s[1..] ==> t in s;
      TotalValueNonNegative(s[1..]);
    }
  }

  datatype TxnStats = TxnStats(total: int, buyCount: int, sellCount: int, totalBuyValue: int, totalSellValue: int)

  /** getTransactionStats: counts and values per type; all zero for a non-array. */
  function GetTransactionStats(transactions: Option<seq<Txn>>): (r: TxnStats)
    ensures transactions.None? ==> r == TxnStats(0, 0, 0, 0, 0)
    ensures transactions.Some? ==>
      && r.total == |transactions.value|
      && 0 <= r.buyCount <= r.total
      && 0 <= r.sellCount <= r.total
      && r.buyCount == |FilterByType(transactions, "BUY")|
      && r.sellCount == |FilterByType(transactions, "SELL")|
      && r.totalBuyValue == CalculateTotalValue(Some(FilterByType(transactions, "BUY")))
      && r.totalSellValue == CalculateTotalValue(Some(FilterByType(transactions, "SELL")))
  {
    match transactions
    case None => TxnStats(0, 0, 0, 0, 0)
    case Some(s) =>
      var buys := FilterByType(transactions, "BUY");
      var sells := FilterByType(transactions, "SELL");
      TxnStats(|s|, |buys|, |sells|, CalculateTotalValue(Some(buys)), CalculateTotalValue(Some(sells)))
  }

  /** Buying and selling split the list: the counts never exceed the total. */
  lemma StatsCountsWithinTotal(s: seq<Txn>)
    ensures GetTransactionStats(Some(s)).buyCount + GetTransactionStats(Some(s)).sellCount <= |s|
  {
    FilterDisjointCount(s, t => OfType(t, "BUY"), t => OfType(t, "SELL"));
  }

  lemma {:induction false} SplitValue(s: seq<Txn>)
    requires forall t :: t in s ==> t.kind == "BUY" || t.kind == "SELL"
    ensures SumValues(Filter(s, t => OfType(t, "BUY"))) + SumValues(Filter(s, t => OfType(t, "SELL"))) == SumValues(s)
  {
    if s != [] {
      assert s[0] in s;
      assert forall t :: t in s[1..] ==> t in s;
      SplitValue(s[1..]);
    }
  }

  /**
   * When every transaction is a BUY or a SELL, the two counts add up to the
   * total and the two values add up to calculateTotalValue of the whole list.
   */
  lemma StatsPartition(s: seq<Txn>)
    requires forall t :: t in s ==> t.kind == "BUY" || t.kind == "SELL"
    ensures GetTransactionStats(Some(s)).buyCount + GetTransactionStats(Some(s)).sellCount == |s|
    ensures GetTransactionStats(Some(s)).totalBuyValue + GetTransactionStats(Some(s)).totalSellValue
            == CalculateTotalValue(Some(s))
  {
    FilterDisjointCount(s, t => OfType(t, "BUY"), t => OfType(t, "SELL"));
    SplitValue(s);
  }
}

=== FILE: wrappers.dfy ===
/** Optional values: a JavaScript field that may be missing (undefined or null). */
module Wrappers {
  datatype Option<+T> = None | Some(value: T)

  /** `x || 0` on a numeric field: a missing field (or 0) reads as 0. */
  function OrZero(x: Option<int>): int
  {
    match x
    case None => 0
    case Some(v) => v
  }
}
